=== FILE: README.md ===
# FakeChip8 interpreter core in Dafny

This project models `fakers::FakeChip8`, the CHIP-8 interpreter at the centre of the repository. The machine state is:

- 4096 bytes of memory;
- sixteen 8-bit registers V0..VF;
- the address register I;
- the program counter;
- the call stack;
- the delay and sound timers;
- the 16-key snapshot;
- the pending key-wait and its target register;
- 32 display rows of 64 bits each;
- the stop request.

`load` sizes the containers. It writes the built-in font at address 0 and the program at 0x200, clears the display and starts at 0x200.

Each `step` does the following, in order:

1. It ticks the two timers.
2. It polls the keypad and resolves a pending key-wait.
3. Unless a wait persists, it fetches one big-endian instruction word and runs the handler of its class nibble.
4. It reports `pc < memory size && !stopped`.

Everything is a pure function.

- `Interpreter.Step` maps a machine, the key snapshot and the byte that `rand()` would return to `Ok(Outcome(machine, running, drew))`, or to `Err(fault)`.
- A fault is `OutOfBounds`, raised where the source's `.at()` throws. It is `UnsupportedOpcode` for an `8xy_` instruction whose low nibble is undefined.
- `drew` says that the display was handed to the screen. Only `Dxyn` does that.

Modules, one concept each:

- `Types`: bytes, register indices, faults and `Result`.
- `Storage`: constants, font, vector resize and copy, the load image, BCD.
- `Decode`: the instruction word and its nibbles.
- `Bits`: bitwise `|`, `&` and `^` on bytes.
- `Keypad`: the key snapshot and the key-wait scan.
- `Pixels` and `Display`: rows, sprites and the XOR draw loop.
- `Alu`: the `8xyn` instructions.
- `Chip8`: the machine, `load` and `stop`.
- `Interpreter`: the timers, polling, fetch, the sixteen handlers and `step`.
- `Properties`: facts about whole steps and short instruction sequences.

Bytes are integers in 0..255, and every wrap-around is written as an explicit `% 256`. Display rows are `bv64`, so the shifts and XOR of the draw loop are the source's own.

## Behaviour as coded

Some behaviour of the code is easy to miss on a first reading. The model follows the code in each case:

- **Key-wait picks the highest key.** The loop at `src/FakeChip8.cc:357-361` overwrites the register on every pressed key, so the highest pressed key remains (`Keypad.ScanKeys`, `Properties.ResumingStep`).
- **Resuming a wait runs an instruction at once.** The step that resolves a key-wait goes on to fetch and execute in that same call (`src/FakeChip8.cc:79-85`, `:364`).
- **`load` resets little.** It does not reset I, the timers, the stack, the stop request or a pending wait. Registers and memory are resized, so they keep their old contents wherever the font and the program do not overwrite them (`src/FakeChip8.cc:48-56`). On a default-constructed object, whose I, timers and stack are zero or empty, this is the same as a full reset (`Chip8.LoadFresh`).
- **A stop request does not skip the next instruction.** That step still executes its instruction and then returns false (`src/FakeChip8.cc:77-85`, `:350`).
- **VF is written before Vx in `8xy4`, `8xy5`, `8xy6` and `8xyE`.** In `8xF4` and `8xF5` (y = F) the operand read as Vy is the new flag, because only these two read Vy after writing VF. In `8Fy4`, `8Fy5`, `8Fy6` and `8FyE` (x = F) the arithmetic result replaces the flag: `8Fy4` and `8Fy5` store the sum or difference, `8Fy6` leaves 0, and `8FyE` stores twice bit 7.
- **`8xy7` does not write VF as a flag.** VF changes only when x = F, because then `8Fy7` stores Vy - VF into VF itself (`src/FakeChip8.cc:205-209`, `Alu.Arith`).

## Model

| member | source | states |
|---|---|---|
| Storage.Resize | src/FakeChip8.cc:50-51 | result has the requested size; elements up to the old size are kept; new elements are zero |
| Storage.Copy | src/FakeChip8.cc:55-56 | result has the destination's size; the source appears at the offset; everything else is unchanged |
| Storage.Bcd | src/FakeChip8.cc:320-330 | three decimal digits, each below 10, whose value 100h + 10t + u is the byte |
| Storage.Image | src/FakeChip8.cc:51-56 | the loaded memory is 4096 bytes with the font at 0 and the program at 0x200; old contents survive elsewhere and are zero past the old end |
| Storage.ImageTwice | src/FakeChip8.cc:48-56 | writing the same images again changes nothing |
| Storage.ResizeToOwnSize | src/FakeChip8.cc:50-51 | resizing to the current size is the identity |
| Storage.ImageOfEmpty | src/FakeChip8.cc:48-56 | from empty memory, the image is the font, then zeros to 0x200, the program, and zeros to the end |
| Decode.Join | src/FakeChip8.cc:376-380 | the word's high byte is mem[pc] and its low byte is mem[pc+1] |
| Decode.Arg | src/FakeChip8.cc:367-369 | every nibble is below 16 |
| Decode.Kk | src/FakeChip8.cc:124-125 | the low byte is nibble 2 times 16 plus nibble 3 |
| Decode.Nnn | src/FakeChip8.cc:101 | the address is below 0x1000 and is built from nibbles 1..3 |
| Decode.ArgsRebuildWord | src/FakeChip8.cc:367-369 | the four nibbles rebuild the word, so decoding loses nothing |
| Decode.JoinFields | src/FakeChip8.cc:376-380 | class and x come from the first byte; kk is exactly the second byte |
| Bits.Xor | src/FakeChip8.cc:178-181 | the result fits the width |
| Bits.Or | src/FakeChip8.cc:170-173 | the result fits the width |
| Bits.And | src/FakeChip8.cc:174-177 | the result fits the width |
| Bits.XorTwice | src/FakeChip8.cc:178-181 | XOR with the same value twice returns the original |
| Bits.OrIdempotent | src/FakeChip8.cc:170-173 | OR with the same value twice equals doing it once |
| Bits.AndIdempotent | src/FakeChip8.cc:174-177 | AND with the same value twice equals doing it once |
| Bits.AndBelowMask | src/FakeChip8.cc:241 | a masked value never exceeds the mask |
| Keypad.NoKeys | inc/FakeChip8.h:58 | the empty snapshot has no key pressed |
| Keypad.ScanKeys | src/FakeChip8.cc:357-361 | if a key from i upwards is pressed, the result is the highest pressed key; otherwise the register keeps its value |
| Alu.Arith | src/FakeChip8.cc:163-222 | error exactly for undefined sub-opcodes; sixteen registers; only Vx and VF change; VF is untouched by 0-3 and 7 unless x is F; `8xy0` copies Vy into Vx |
| Alu.AddCarries | src/FakeChip8.cc:182-190 | VF = 1 iff the sum exceeds 255; Vx is the sum mod 256; Vx + 256*VF is the exact sum |
| Alu.SubBorrows | src/FakeChip8.cc:191-199 | VF = 1 iff Vx >= Vy; Vx is the difference mod 256; Vx - 256*(1-VF) is the exact difference |
| Alu.ArithmeticIntoFlag | src/FakeChip8.cc:182-199 | with x = F, the sum or difference computed from the new flag overwrites the flag |
| Alu.ArithmeticFromFlag | src/FakeChip8.cc:182-199 | with y = F, the operand is the flag just written |
| Alu.ShiftsKeepOutBit | src/FakeChip8.cc:200-214 | the shifted-out bit lands in VF, so Vx and VF together hold the old value; Vy plays no part |
| Alu.ShiftRightFlagItself | src/FakeChip8.cc:200-204 | `8Fy6` leaves VF = 0 |
| Alu.ReverseSubNoFlag | src/FakeChip8.cc:205-209 | Vx = (Vy - Vx) mod 256, VF untouched, and adding the old Vx gives back Vy |
| Alu.XorTwiceRestores | src/FakeChip8.cc:178-181 | `8xy3` twice with x != y restores the register file |
| Alu.OrTwice | src/FakeChip8.cc:170-173 | `8xy1` twice acts as once |
| Alu.AndTwice | src/FakeChip8.cc:174-177 | `8xy2` twice acts as once |
| Pixels.DarkensIffMeets | src/FakeChip8.cc:257-260 | XORing a line into a row clears a lit pixel iff the line meets a lit pixel |
| Pixels.ClearedBits | src/FakeChip8.cc:257-260 | the lit pixels cleared by a toggle are the lit pixels under the line |
| Pixels.ToggleTwice | src/FakeChip8.cc:260 | toggling the same line twice restores the row |
| Pixels.MeetsAfterToggle | src/FakeChip8.cc:257-260 | after a toggle, the line meets a lit pixel iff the toggle lit a dark one |
| Pixels.LitBits | src/FakeChip8.cc:257-260 | the pixels the line meets after a toggle are the ones the toggle newly lit |
| Pixels.NothingDarkensItself | src/FakeChip8.cc:257-260 | an unchanged row clears no pixel |
| Display.Blank | src/FakeChip8.cc:52-53 | 32 rows, all dark |
| Display.SpriteLinePixel | src/FakeChip8.cc:255-260 | pixel k of the sprite byte lights column x+k; pixels that would fall past column 63 are dropped and nothing wraps |
| Display.Column | src/FakeChip8.cc:245 | the sprite's column is Vx mod 64 |
| Display.Sprite | src/FakeChip8.cc:254-257 | at most n lines, fewer only when memory ends; line j lights exactly the columns x+k for the lit pixels k of memory byte base+j |
| Display.Reach | src/FakeChip8.cc:254 | the rows drawn stay on the display, and the loop stops short only at the bottom row |
| Display.DrawFrom | src/FakeChip8.cc:254-261 | the display keeps its 32 rows |
| Display.SpriteDraw | src/FakeChip8.cc:253-261 | each row from y down, while the sprite and the display last, is XORed with memory byte base+j placed at column x; other rows are unchanged; the flag is set iff some lit pixel went dark |
| Display.DrawSpriteRows | src/FakeChip8.cc:254-261 | the draw loop over the sprite's lines changes exactly the reached rows, each by its memory byte placed at column x |
| Display.DrawFromRow | src/FakeChip8.cc:254-261 | rows the sprite reaches are XORed with their line; all other rows are unchanged |
| Display.DrawFromHit | src/FakeChip8.cc:253-259 | the collision flag is set iff some reached row already had a lit pixel under its line |
| Display.CollisionMeansPixelCleared | src/FakeChip8.cc:253-260 | the collision flag is set iff the draw turned some lit pixel off |
| Display.DrawTwiceRestores | src/FakeChip8.cc:254-261 | drawing the same sprite twice restores the display |
| Display.SecondDrawCollision | src/FakeChip8.cc:253-260 | the second of two equal draws collides iff the first lit some dark pixel |
| Chip8.Fresh | inc/FakeChip8.h:44-60 | a default-constructed object has empty containers, zero pc, I and timers, and nothing pending |
| Chip8.Load | src/FakeChip8.cc:48-56 | sizes are valid; the font is at 0 and the program at 0x200; old memory and registers survive elsewhere; the display is dark; pc = 0x200; no other field changes |
| Chip8.LoadTwice | src/FakeChip8.cc:48-56 | loading the same program twice equals loading it once |
| Chip8.LoadFresh | src/FakeChip8.cc:48-56 | on a fresh object: font, zeros, program, zeros; registers, I and timers zero; stack empty; display blank; pc = 0x200 |
| Chip8.Stop | src/FakeChip8.cc:73-75 | sets the stop request and changes nothing else |
| Interpreter.Tick | src/FakeChip8.cc:371-374 | each timer drops by exactly one, or stays at zero; nothing else changes |
| Interpreter.TicksCountDown | src/FakeChip8.cc:371-374 | after n ticks a timer is max(t - n, 0) |
| Interpreter.Poll | src/FakeChip8.cc:354-365 | stores the snapshot; a wait survives iff no key is down; a resolved wait writes the highest pressed key into its register only |
| Interpreter.Fetch | src/FakeChip8.cc:376-380 | OutOfBounds iff pc+1 is outside memory; otherwise the big-endian word at pc, with pc advanced by 2 |
| Interpreter.SkipIf | src/FakeChip8.cc:122-148 | pc advances by 2 iff the condition holds; nothing else changes |
| Interpreter.SetReg | src/FakeChip8.cc:149-162 | writes exactly one register |
| Interpreter.System | src/FakeChip8.cc:88-104 | `00E0` blanks the display; `00EE` pops the top of the stack into pc; any other `0nnn` jumps to nnn |
| Interpreter.Jump | src/FakeChip8.cc:105-115 | pc = nnn; a stop is requested iff nnn is the instruction's own address |
| Interpreter.Call | src/FakeChip8.cc:116-121 | pushes the return address and jumps to nnn |
| Interpreter.DrawSprite | src/FakeChip8.cc:244-263 | each row from Vy mod 32 down, while the sprite and the display last, is XORed with memory byte I+j placed at column Vx mod 64; other rows are unchanged; VF = 1 iff some lit pixel went dark, else 0; only the display and VF change |
| Interpreter.KeySkip | src/FakeChip8.cc:265-285 | `Ex9E` skips iff key Vx is pressed; `ExA1` skips iff it is not; a test that does not skip leaves pc where it was; other `Ex__` do nothing |
| Interpreter.StoreBcd | src/FakeChip8.cc:320-330 | OutOfBounds iff I+2 is outside memory; otherwise the decimal digits of Vx are at I..I+2 and other memory and I are unchanged |
| Interpreter.DumpRegs | src/FakeChip8.cc:331-336 | OutOfBounds iff I+x is outside memory; otherwise mem[I+k] = Vk for k <= x and nothing else changes, I included |
| Interpreter.LoadRegs | src/FakeChip8.cc:337-342 | OutOfBounds iff I+x is outside memory; otherwise Vk = mem[I+k] for k <= x, higher registers are kept and I is unchanged |
| Interpreter.Misc | src/FakeChip8.cc:286-345 | each `Fx__` sub-operation's effect, with `Fx33`, `Fx55` and `Fx65` acting as `StoreBcd`, `DumpRegs` and `LoadRegs`; faults only for the memory accesses of 33, 55 and 65; unknown sub-operations do nothing |
| Interpreter.Flow | src/FakeChip8.cc:88-285 | the control classes (0-5, 9, B, E) touch only pc, the stack, the stop request and the display; `1nnn`/`2nnn` go to nnn and `2nnn` pushes the return address; `3xkk` skips iff Vx = kk, `4xkk` iff Vx != kk, `5xy_` iff Vx = Vy, `9xy_` iff Vx != Vy; `Bnnn` goes to V0 + nnn |
| Interpreter.Data | src/FakeChip8.cc:149-264 | the load and draw classes (6, 7, A, C, D) touch only the registers, I and the display; `6xkk` sets Vx to kk, `7xkk` adds kk mod 256, `Annn` sets I to nnn, `Cxkk` stores `rnd & kk`, which never exceeds kk; `6xkk`, `7xkk` and `Cxkk` change Vx alone, and `Annn` changes I alone |
| Interpreter.Execute | src/FakeChip8.cc:87-348 | fails exactly on the listed faults; sizes stay valid; drew iff `Dxyn`; a stop comes only from a self-jump; memory changes only by Fx33 and Fx55; timers change only by Fx15 and Fx18 |
| Interpreter.Cycle | src/FakeChip8.cc:83-350 | OutOfBounds when pc+1 is outside memory; otherwise the result of executing the big-endian word at pc with pc advanced by 2; running iff pc < 4096 and not stopped; a stop request always ends the run |
| Interpreter.Polled | src/FakeChip8.cc:78-79 | ticking and polling keep the sizes valid |
| Interpreter.Step | src/FakeChip8.cc:77-351 | sizes stay valid; the snapshot is stored; while waiting only timers and snapshot change and the result is "not stopped"; after a stop request the run ends |
| Properties.SuspendedStep | src/FakeChip8.cc:77-81 | while waiting with no key down, only the timers and snapshot change; the result is "not stopped" |
| Properties.ResumingStep | src/FakeChip8.cc:354-365 | the first key-down snapshot writes the highest key, clears the wait and runs the next instruction in the same step |
| Properties.StepFetchesThenExecutes | src/FakeChip8.cc:83-85 | a running step executes the big-endian word at pc with pc advanced by 2 |
| Properties.StepTicksTimers | src/FakeChip8.cc:77-85 | a completed step ticks both timers unless its instruction set one |
| Properties.JumpToSelfStops | src/FakeChip8.cc:105-115 | a `1nnn` to its own address stops the machine and the step returns false |
| Properties.StopEndsRun | src/FakeChip8.cc:73-80 | after `stop`, a completed step returns false |
| Properties.CallStep | src/FakeChip8.cc:116-121 | a `2nnn` step pushes pc+2 and jumps to nnn |
| Properties.ReturnStep | src/FakeChip8.cc:95-100 | a `00EE` step pops the top of the stack into pc |
| Properties.CallThenReturn | src/FakeChip8.cc:95-121 | call then return: pc is just past the call and the stack is as before |
| Properties.ImmediateStep | src/FakeChip8.cc:149-162 | `6xkk` sets Vx to kk; `7xkk` adds kk mod 256 without touching VF |
| Properties.SetThenAdd | src/FakeChip8.cc:149-162 | `6A02; 7A05` leaves VA = 7, pc 4 further on, and other registers unchanged |
| Properties.DumpThenLoad | src/FakeChip8.cc:331-342 | `Fx55` then `Fx65` restores the registers |
| Properties.LoadThenDump | src/FakeChip8.cc:331-342 | `Fx65` then `Fx55` restores memory |
| Properties.DrawSpriteTwice | src/FakeChip8.cc:244-263 | the same `Dxyn` twice (x, y != F) restores the display |
| Properties.RandomMasked | src/FakeChip8.cc:238-243 | `Cxkk` never exceeds kk, and a zero mask gives zero |
| Properties.ArithStep | src/FakeChip8.cc:163-222 | an `8xyn` step applies the ALU; it faults iff n is undefined |
| Properties.KeySkipStep | src/FakeChip8.cc:265-285 | `Ex9E`/`ExA1` test the snapshot of the same step: pc moves 4 on when the test skips and 2 otherwise, and nothing else but the timers and snapshot changes |
| Properties.DrawStep | src/FakeChip8.cc:244-263 | a `Dxyn` step draws, and VF = 1 iff a lit pixel went dark |
| Properties.SelfJumpProgramStops | src/FakeChip8.cc:105-115 | the program `1200`, loaded fresh, stops on its first step |
| Properties.SkipStep | src/FakeChip8.cc:122-148 | a `3xkk`/`4xkk`/`5xy_` step, or a `9xy_` step (`src/FakeChip8.cc:223-228`), leaves pc 4 further on iff its condition holds, else 2; nothing else but the timers and snapshot changes |
| Properties.OffsetJumpStep | src/FakeChip8.cc:234-237 | a `Bnnn` step sets pc to V0 + nnn, and the run goes on iff that is inside memory |
| Properties.IndexStep | src/FakeChip8.cc:229-233 | an `Annn` step sets I to nnn and changes nothing else but pc |
| Properties.CopyThenCompare | src/FakeChip8.cc:140-169 | after `8xy0`, `5xy_` on the same registers skips and `9xy_` (`src/FakeChip8.cc:223-228`) does not |
| Properties.DelayReadBack | src/FakeChip8.cc:290-302 | `Fx15` then `Fy07` reads back the value written |
| Properties.IndexAddsTwice | src/FakeChip8.cc:307-312 | two `Fx1E` move I on by twice Vx and change nothing else |
| Properties.GlyphInFont | src/FakeChip8.cc:313-319 | `Fx29` with a digit in Vx points I at the start of that digit's 5-byte glyph inside the font |
| Properties.WaitThenKey | src/FakeChip8.cc:294-298 | `Fx0A` suspends; the first snapshot with a key down writes its highest key into Vx and resumes |

## Left out

- The debug tracer is left out because it only formats text for stdout. That covers `debugPrint_`, `flushDebugToStdout`, every `if (debug_)` line and the destructor.
- `rand()` in `Cxkk` is replaced by the byte `rnd`, a parameter of `Step`. `rand() & kk` equals `(rand() % 256) & kk`.
- `display_->draw` becomes the `drew` flag, with the new display in the machine. The callback is outside code. A null display or input pointer is not modelled.
- `inputIO_->read()` becomes the `keys` parameter of `Step`.
- The two progress messages `load` writes to standard output (`src/FakeChip8.cc:49`, `:58`) are left out. They are output only and change no state.
- The GUI (`src/SfmlGui.cc`), the runner (`inc/FakeChip8Runner.h`), `src/main.cc` and the empty `AudioIO` stub are left out. They are I/O, pacing and threads.
- Some undefined behaviour in the C++ is excluded by preconditions: `00EE` on an empty stack, `Ex__` with Vx >= 16 (`keyStates_[Vx]`) and a program longer than 3584 bytes in `load`.
- Calling `step` before `load` is excluded by the `Valid` precondition (the sizes `load` sets). The handlers would otherwise hit empty vectors.
- Interpreter.Step: a fault carries no machine, so writes done before a throw are not kept. This covers the bytes `Fx55` or the registers `Fx65` wrote before the faulting index, the timer tick, the key poll (the stored snapshot and a resolved key-wait) and the fetch's pc += 2. The runner ends the run on any exception.
- Interpreter.Step: I, pc and the timers are unbounded naturals. The source's `int` overflow of I after very many `Fx1E` is not modelled.
- Display.DrawFrom: its own contract gives only the row count. The row-by-row effect and the collision flag are stated by `Display.DrawFromRow` and `Display.DrawFromHit`.
- Bits.Xor: its own contract gives only the range of the result. The bit-by-bit definition is the reference, and `Bits.XorTwice` states the law `8xy3` relies on.
- Bits.Or: its own contract gives only the range of the result. The bit-by-bit definition is the reference, and `Bits.OrIdempotent` states the law `8xy1` relies on.
- Bits.And: its own contract gives only the range of the result. The bit-by-bit definition is the reference, and `Bits.AndIdempotent` and `Bits.AndBelowMask` state the laws `8xy2` and `Cxkk` rely on.

=== FILE: alu.dfy ===
/** The register-to-register arithmetic of the `8xyn` instructions. Each
    handler performs its register writes in the order the source does, so
    when x or y names VF the later write sees the earlier one. */
module Alu {
  import opened Types
  import opened Bits

  /** Whether `n` is one of the defined `8xyn` sub-opcodes 0..7 and E. */
  predicate Supported(n: nat) {
    n <= 7 || n == 0xE
  }

  /** `8xyn` on the register file. */
  function Arith(regs: seq<byte>, x: RegIndex, y: RegIndex, n: nat): (r: Result<seq<byte>>)
    requires |regs| == 16
    ensures r.Err? <==> !Supported(n)
    ensures r.Err? ==> r.fault == UnsupportedOpcode
    ensures r.Ok? ==> |r.value| == 16
    ensures r.Ok? ==> forall k :: 0 <= k < 16 && k != x && k != FlagReg ==> r.value[k] == regs[k]
    ensures r.Ok? && (n <= 3 || n == 7) ==> r.value[FlagReg] == regs[FlagReg] || x == FlagReg
    ensures n == 0 ==> r.Ok? && r.value[x] == regs[y]
  {
    match n
    case 0x0 => Ok(regs[x := regs[y]])
    case 0x1 => Ok(regs[x := ByteOr(regs[x], regs[y])])
    case 0x2 => Ok(regs[x := ByteAnd(regs[x], regs[y])])
    case 0x3 => Ok(regs[x := ByteXor(regs[x], regs[y])])
    case 0x4 =>
      var flagged := regs[FlagReg := if regs[x] as int + regs[y] > 0xFF then 1 else 0];
      Ok(flagged[x := (flagged[x] as int + flagged[y]) % 256])
    case 0x5 =>
      var flagged := regs[FlagReg := if regs[x] >= regs[y] then 1 else 0];
      Ok(flagged[x := (flagged[x] as int - flagged[y]) % 256])
    case 0x6 =>
      var flagged := regs[FlagReg := regs[x] % 2];
      Ok(flagged[x := flagged[x] / 2])
    case 0x7 => Ok(regs[x := (regs[y] as int - regs[x]) % 256])
    case 0xE =>
      var flagged := regs[FlagReg := regs[x] / 0x80];
      Ok(flagged[x := (flagged[x] as int * 2) % 256])
    case _ => Err(UnsupportedOpcode)
  }

  /** `8xy4` on two ordinary registers: VF is the carry out of the 8-bit sum,
      so Vx and VF together hold the exact sum. */
  lemma AddCarries(regs: seq<byte>, x: RegIndex, y: RegIndex)
    requires |regs| == 16 && x != FlagReg && y != FlagReg
    ensures var r := Arith(regs, x, y, 4).value;
            && (r[FlagReg] == 1 <==> regs[x] as int + regs[y] > 255)
            && r[x] == (regs[x] as int + regs[y]) % 256
            && r[x] as int + 256 * r[FlagReg] as int == regs[x] as int + regs[y]
  {
  }

  /** `8xy5` on two ordinary registers: VF is 1 exactly when no borrow is
      needed, and Vx and VF together hold the exact difference. */
  lemma SubBorrows(regs: seq<byte>, x: RegIndex, y: RegIndex)
    requires |regs| == 16 && x != FlagReg && y != FlagReg
    ensures var r := Arith(regs, x, y, 5).value;
            && (r[FlagReg] == 1 <==> regs[x] >= regs[y])
            && r[x] == (regs[x] as int - regs[y]) % 256
            && r[x] as int - 256 * (1 - r[FlagReg] as int) == regs[x] as int - regs[y]
  {
  }

  /** `8xy4` and `8xy5` into VF: the flag is written first and the sum or
      difference then overwrites it, computed from the flag. */
  lemma ArithmeticIntoFlag(regs: seq<byte>, y: RegIndex)
    requires |regs| == 16 && y != FlagReg
    ensures var carry := if regs[FlagReg] as int + regs[y] > 255 then 1 else 0;
            Arith(regs, FlagReg, y, 4).value[FlagReg] == (carry as int + regs[y]) % 256
    ensures var noBorrow := if regs[FlagReg] >= regs[y] then 1 else 0;
            Arith(regs, FlagReg, y, 5).value[FlagReg] == (noBorrow as int - regs[y]) % 256
  {
  }

  /** `8xF4` and `8xF5`: the operand read as Vy is the flag just written, not
      the value VF held before the instruction. */
  lemma ArithmeticFromFlag(regs: seq<byte>, x: RegIndex)
    requires |regs| == 16 && x != FlagReg
    ensures var r := Arith(regs, x, FlagReg, 4).value;
            r[x] == (regs[x] as int + r[FlagReg]) % 256
    ensures var r := Arith(regs, x, FlagReg, 5).value;
            r[x] == (regs[x] as int - r[FlagReg]) % 256
  {
  }

  /** `8xy6` and `8xyE` on an ordinary register: the bit shifted out lands in
      VF, so nothing is lost; Vy plays no part. */
  lemma ShiftsKeepOutBit(regs: seq<byte>, x: RegIndex, y: RegIndex, y': RegIndex)
    requires |regs| == 16 && x != FlagReg
    ensures var r := Arith(regs, x, y, 6).value;
            r[FlagReg] == regs[x] % 2 && 2 * r[x] as int + r[FlagReg] == regs[x]
    ensures var r := Arith(regs, x, y, 0xE).value;
            r[FlagReg] == regs[x] / 128 && r[x] as int + 256 * r[FlagReg] as int == 2 * regs[x] as int
    ensures Arith(regs, x, y, 6) == Arith(regs, x, y', 6)
    ensures Arith(regs, x, y, 0xE) == Arith(regs, x, y', 0xE)
  {
  }

  /** `8Fy6` leaves VF zero: the shift applies to the just-written flag bit. */
  lemma ShiftRightFlagItself(regs: seq<byte>, y: RegIndex)
    requires |regs| == 16
    ensures Arith(regs, FlagReg, y, 6).value[FlagReg] == 0
  {
  }

  /** `8xy7` stores Vy - Vx modulo 256 and leaves VF alone. */
  lemma ReverseSubNoFlag(regs: seq<byte>, x: RegIndex, y: RegIndex)
    requires |regs| == 16 && x != FlagReg
    ensures var r := Arith(regs, x, y, 7).value;
            r[x] == (regs[y] as int - regs[x]) % 256 && r[FlagReg] == regs[FlagReg]
            && (r[x] as int + regs[x]) % 256 == regs[y]
  {
  }

  /** `8xy3` applied twice with x != y gives the register file back. */
  lemma XorTwiceRestores(regs: seq<byte>, x: RegIndex, y: RegIndex)
    requires |regs| == 16 && x != y
    ensures Arith(Arith(regs, x, y, 3).value, x, y, 3).value == regs
  {
    assert Pow2(8) == 256;
    XorTwice(regs[x], regs[y], 8);
    var once := Arith(regs, x, y, 3).value;
    assert once[y] == regs[y];
    assert Arith(once, x, y, 3).value == regs[x := ByteXor(once[x], regs[y])];
  }

  /** `8xy1` applied twice acts as applied once. */
  lemma OrTwice(regs: seq<byte>, x: RegIndex, y: RegIndex)
    requires |regs| == 16 && x != y
    ensures Arith(Arith(regs, x, y, 1).value, x, y, 1) == Arith(regs, x, y, 1)
  {
    OrIdempotent(regs[x], regs[y], 8);
    var ored := Arith(regs, x, y, 1).value;
    assert ByteOr(ored[x], ored[y]) == ored[x];
    assert ored[x := ored[x]] == ored;
  }

  /** `8xy2` applied twice acts as applied once. */
  lemma AndTwice(regs: seq<byte>, x: RegIndex, y: RegIndex)
    requires |regs| == 16 && x != y
    ensures Arith(Arith(regs, x, y, 2).value, x, y, 2) == Arith(regs, x, y, 2)
  {
    AndIdempotent(regs[x], regs[y], 8);
    var anded := Arith(regs, x, y, 2).value;
    assert ByteAnd(anded[x], anded[y]) == anded[x];
    assert anded[x := anded[x]] == anded;
  }
}

=== FILE: bits.dfy ===
/** Bitwise operations on unsigned integers, defined one binary digit at a
    time over a fixed width: the `|`, `&` and `^` of the source's byte
    arithmetic, and the `&` of the random-number instruction. */
module Bits {
  import opened Types

  function Pow2(w: nat): (p: nat)
    ensures p >= 1
  {
    if w == 0 then 1 else 2 * Pow2(w - 1)
  }

  /** The low `w` bits of `a ^ b`. */
  function Xor(a: nat, b: nat, w: nat): (r: nat)
    ensures r < Pow2(w)
  {
    if w == 0 then 0 else (a % 2 + b % 2) % 2 + 2 * Xor(a / 2, b / 2, w - 1)
  }

  /** The low `w` bits of `a | b`. */
  function Or(a: nat, b: nat, w: nat): (r: nat)
    ensures r < Pow2(w)
  {
    if w == 0 then 0
    else (if a % 2 == 1 || b % 2 == 1 then 1 else 0) + 2 * Or(a / 2, b / 2, w - 1)
  }

  /** The low `w` bits of `a & b`. */
  function And(a: nat, b: nat, w: nat): (r: nat)
    ensures r < Pow2(w)
  {
    if w == 0 then 0
    else (if a % 2 == 1 && b % 2 == 1 then 1 else 0) + 2 * And(a / 2, b / 2, w - 1)
  }

  /** Bitwise operations on bytes. */
  function ByteXor(a: byte, b: byte): byte {
    assert Pow2(8) == 256;
    Xor(a, b, 8)
  }

  function ByteOr(a: byte, b: byte): byte {
    assert Pow2(8) == 256;
    Or(a, b, 8)
  }

  function ByteAnd(a: byte, b: byte): byte {
    assert Pow2(8) == 256;
    And(a, b, 8)
  }

  /** XORing with the same value twice gives the original back. */
  lemma {:induction false} XorTwice(a: nat, b: nat, w: nat)
    requires a < Pow2(w)
    ensures Xor(Xor(a, b, w), b, w) == a
  {
    if w > 0 {
      var bit := (a % 2 + b % 2) % 2;
      var rest := Xor(a / 2, b / 2, w - 1);
      var once := Xor(a, b, w);
      assert once == bit + 2 * rest;
      Digits(once, bit, rest);
      assert once % 2 == bit && once / 2 == rest;
      assert a / 2 < Pow2(w - 1);
      XorTwice(a / 2, b / 2, w - 1);
      assert Xor(rest, b / 2, w - 1) == a / 2;
      assert (bit + b % 2) % 2 == a % 2;
      assert Xor(once, b, w) == (once % 2 + b % 2) % 2 + 2 * Xor(once / 2, b / 2, w - 1);
      assert Xor(once, b, w) == a % 2 + 2 * (a / 2);
    }
  }

  /** OR-ing in the same value a second time changes nothing. */
  lemma {:induction false} OrIdempotent(a: nat, b: nat, w: nat)
    ensures Or(Or(a, b, w), b, w) == Or(a, b, w)
  {
    if w > 0 {
      OrIdempotent(a / 2, b / 2, w - 1);
      Digits(Or(a, b, w), if a % 2 == 1 || b % 2 == 1 then 1 else 0, Or(a / 2, b / 2, w - 1));
    }
  }

  /** AND-ing with the same value a second time changes nothing. */
  lemma {:induction false} AndIdempotent(a: nat, b: nat, w: nat)
    ensures And(And(a, b, w), b, w) == And(a, b, w)
  {
    if w > 0 {
      AndIdempotent(a / 2, b / 2, w - 1);
      Digits(And(a, b, w), if a % 2 == 1 && b % 2 == 1 then 1 else 0, And(a / 2, b / 2, w - 1));
    }
  }

  /** An AND never exceeds its mask: it only keeps bits the mask has. */
  lemma {:induction false} AndBelowMask(a: nat, b: nat, w: nat)
    ensures And(a, b, w) <= b
  {
    if w > 0 {
      AndBelowMask(a / 2, b / 2, w - 1);
    }
  }

  /** A value written as its lowest binary digit plus twice the rest. */
  lemma Digits(r: nat, bit: nat, rest: nat)
    requires bit < 2 && r == bit + 2 * rest
    ensures r % 2 == bit && r / 2 == rest
  {
  }
}

=== FILE: decode.dfy ===
/** Instruction words and their fields. An instruction is the 16-bit value
    read big-endian from two consecutive memory bytes; it splits into four
    nibbles: the class (nibble 0) and three argument nibbles. */
module Decode {
  import opened Types

  /** A 16-bit instruction word. */
  type Word = w: nat | w < 0x1_0000

  /** The word formed by a high and a low byte, as `(hi << 8) | lo`. */
  function Join(hi: byte, lo: byte): (w: Word)
    ensures w / 256 == hi && w % 256 == lo
  {
    hi * 256 + lo
  }

  /** Nibble `n` of an instruction, counted from the most significant one:
      `(op >> 4 * (3 - n)) & 0xF`. */
  function Arg(op: Word, n: nat): (r: nat)
    requires n < 4
    ensures r < 16
  {
    match n
    case 0 => (op / 0x1000) % 16
    case 1 => (op / 0x100) % 16
    case 2 => (op / 0x10) % 16
    case 3 => op % 16
  }

  /** The low byte `kk` of an instruction. */
  function Kk(op: Word): (r: byte)
    ensures r == 16 * Arg(op, 2) + Arg(op, 3)
  {
    op % 0x100
  }

  /** The low twelve bits `nnn` of an instruction, an address. */
  function Nnn(op: Word): (r: nat)
    ensures r < 0x1000
    ensures r == 0x100 * Arg(op, 1) + Kk(op)
  {
    assert op % 0x1000 == 0x100 * ((op / 0x100) % 16) + op % 0x100;
    op % 0x1000
  }

  /** The four nibbles determine the word: decoding loses nothing. */
  lemma ArgsRebuildWord(op: Word)
    ensures op == 0x1000 * Arg(op, 0) + 0x100 * Arg(op, 1) + 0x10 * Arg(op, 2) + Arg(op, 3)
  {
    assert op == 0x1000 * (op / 0x1000) + op % 0x1000;
    assert op / 0x1000 < 16 && Arg(op, 0) == op / 0x1000;
    assert op % 0x1000 == 0x100 * ((op / 0x100) % 16) + op % 0x100;
    assert op % 0x100 == 0x10 * ((op / 0x10) % 16) + op % 0x10;
  }

  /** The class nibble of a word built from two bytes is the high nibble of
      its first byte, and `kk` is its second byte. */
  lemma JoinFields(hi: byte, lo: byte)
    ensures Arg(Join(hi, lo), 0) == hi / 16
    ensures Arg(Join(hi, lo), 1) == hi % 16
    ensures Kk(Join(hi, lo)) == lo
    ensures Nnn(Join(hi, lo)) == (hi % 16) * 256 + lo
  {
  }
}

=== FILE: display.dfy ===
/** Single framebuffer rows as 64-bit words: the XOR toggle the draw applies
    and the two pixel relations its collision flag is about. */
module Pixels {

  /** Whether the pixel in column `col` of a row is lit; column 0 is the
      left edge and is the row's most significant bit. */
  predicate Lit(row: bv64, col: bv6) {
    (row >> (63 - col)) & 1 == 1
  }

  /** Whether pixel `k` of a sprite byte is lit; pixel 0 is the leftmost and
      is the byte's most significant bit. */
  predicate BytePixel(b: int, k: bv6)
    requires 0 <= b < 256 && k < 8
  {
    ((b as bv64) >> (7 - k)) & 1 == 1
  }

  /** A row with a sprite line XORed into it. */
  function Toggle(row: bv64, line: bv64): bv64 {
    row ^ line
  }

  /** The pixels lit in both words. */
  function Common(a: bv64, b: bv64): bv64 {
    a & b
  }

  /** Whether a sprite line covers a pixel that is already lit in a row. */
  function Meets(row: bv64, line: bv64): bool {
    Common(row, line) != 0
  }

  /** Whether some pixel lit in `before` is dark in `after`. */
  function Darkens(before: bv64, after: bv64): bool {
    Common(before, !after) != 0
  }

  /** XORing a line into a row darkens a pixel exactly where the line meets
      a lit pixel. */
  lemma DarkensIffMeets(row: bv64, line: bv64)
    ensures Darkens(row, Toggle(row, line)) <==> Meets(row, line)
  {
    ClearedBits(row, line);
  }

  lemma ClearedBits(row: bv64, line: bv64)
    ensures Common(row, !Toggle(row, line)) == Common(row, line)
  {
  }

  /** XORing the same line twice gives the row back. */
  lemma ToggleTwice(row: bv64, line: bv64)
    ensures Toggle(Toggle(row, line), line) == row
  {
  }

  /** After a toggle, the line meets a lit pixel exactly where the toggle lit
      a pixel that was dark. */
  lemma MeetsAfterToggle(row: bv64, line: bv64)
    ensures Meets(Toggle(row, line), line) <==> Darkens(Toggle(row, line), row)
  {
    LitBits(row, line);
  }

  lemma LitBits(row: bv64, line: bv64)
    ensures Common(Toggle(row, line), line) == Common(Toggle(row, line), !row)
  {
  }

  lemma NothingDarkensItself(row: bv64)
    ensures !Darkens(row, row)
  {
  }
}

module Display {
  import opened Types
  import opened Storage
  import opened Pixels

  /** An all-dark framebuffer of 32 rows. */
  function Blank(): (d: seq<bv64>)
    ensures |d| == Rows
    ensures forall r :: 0 <= r < |d| ==> d[r] == 0
  {
    seq(Rows, _ => 0)
  }

  /** A sprite byte placed in the most significant byte of a row and moved
      right by `x` pixels; pixels pushed past bit 0 are dropped, not wrapped. */
  function SpriteLine(b: byte, x: bv6): bv64 {
    ((b as bv64) << 56) >> x
  }

  /** Whether `line` holds sprite byte `b` at column `x`: pixel k of the
      byte lights column x + k, and no other column is lit. */
  ghost predicate Placed(line: bv64, b: byte, x: bv6) {
    forall col: bv6 :: Lit(line, col) <==> x <= col && col - x < 8 && BytePixel(b, col - x)
  }

  /** Pixel k of the byte lands in column x + k; a pixel whose column would
      be past 63 is dropped and nothing wraps round to the left edge. */
  lemma SpriteLinePixel(b: byte, x: bv6, col: bv6)
    ensures Lit(SpriteLine(b, x), col) <==> x <= col && col - x < 8 && BytePixel(b, col - x)
  {
  }

  lemma SpriteLinePlaced(b: byte, x: bv6)
    ensures Placed(SpriteLine(b, x), b, x)
  {
    forall col: bv6 {
      SpriteLinePixel(b, x, col);
    }
  }

  lemma AllSpriteLinesPlaced()
    ensures forall b: byte, x: bv6 :: Placed(SpriteLine(b, x), b, x)
  {
    forall b: byte, x: bv6 {
      SpriteLinePlaced(b, x);
    }
  }

  function Min(a: nat, b: nat): nat {
    if a <= b then a else b
  }

  /** The rows of an `n`-byte sprite stored at `base`, each placed at column
      `x`. The draw loop stops at the end of memory, so a sprite that runs
      past it is cut short there. */
  function Sprite(mem: seq<byte>, base: nat, x: bv6, n: nat): (s: seq<bv64>)
    ensures |s| <= n && (|s| < n ==> base + |s| >= |mem|)
    ensures forall j :: 0 <= j < |s| ==> base + j < |mem| && Placed(s[j], mem[base + j], x)
  {
    AllSpriteLinesPlaced();
    var len := if base < |mem| then Min(n, |mem| - base) else 0;
    seq(len, j requires 0 <= j < len => SpriteLine(mem[base + j], x))
  }

  /** The display column of a sprite drawn at horizontal coordinate `v`. */
  function Column(v: byte): (c: bv6)
    ensures c as int == v % 64
  {
    (v % 64) as bv6
  }

  /** How many sprite rows land on the display when the sprite starts at row
      `y`: the draw loop also stops at the bottom row. */
  function Reach(lines: nat, y: nat, rows: nat): (k: nat)
    ensures k <= lines
    ensures k == 0 || y + k <= rows
    ensures k < lines ==> y + k >= rows
  {
    if y <= rows then Min(lines, rows - y) else 0
  }

  /** The draw loop from sprite row `i` on: row `y + i` is XORed with sprite
      line `i` while both exist, and the second component tells whether any
      processed row already had a lit pixel where its sprite line has one. */
  function DrawFrom(d: seq<bv64>, lines: seq<bv64>, y: nat, i: nat): (r: (seq<bv64>, bool))
    requires i <= Reach(|lines|, y, |d|)
    ensures |r.0| == |d|
    decreases |lines| - i
  {
    if i < |lines| && y + i < |d| then
      var rest := DrawFrom(d[y + i := Toggle(d[y + i], lines[i])], lines, y, i + 1);
      (rest.0, Meets(d[y + i], lines[i]) || rest.1)
    else
      (d, false)
  }

  /** Each display row after the loop: the rows the sprite reaches are
      XORed with their sprite line, every other row is unchanged. */
  lemma {:induction false} DrawFromRow(d: seq<bv64>, lines: seq<bv64>, y: nat, i: nat, row: nat)
    requires i <= Reach(|lines|, y, |d|)
    requires row < |d|
    ensures DrawFrom(d, lines, y, i).0[row] ==
              if y + i <= row < y + Reach(|lines|, y, |d|) then Toggle(d[row], lines[row - y]) else d[row]
    decreases |lines| - i
  {
    if i < |lines| && y + i < |d| {
      DrawFromRow(d[y + i := Toggle(d[y + i], lines[i])], lines, y, i + 1, row);
    }
  }

  /** The loop reports a collision exactly when some row it reaches already
      has a lit pixel under its sprite line. */
  lemma {:induction false} DrawFromHit(d: seq<bv64>, lines: seq<bv64>, y: nat, i: nat)
    requires i <= Reach(|lines|, y, |d|)
    ensures DrawFrom(d, lines, y, i).1 <==>
              exists row :: y + i <= row < y + Reach(|lines|, y, |d|) && Meets(d[row], lines[row - y])
    decreases |lines| - i
  {
    if i < |lines| && y + i < |d| {
      var d' := d[y + i := Toggle(d[y + i], lines[i])];
      DrawFromHit(d', lines, y, i + 1);
      var k := Reach(|lines|, y, |d|);
      assert forall row :: y + i + 1 <= row < y + k ==> d'[row] == d[row];
    }
  }

  /** The collision flag is raised exactly when the draw switches some lit
      pixel off. */
  lemma CollisionMeansPixelCleared(d: seq<bv64>, lines: seq<bv64>, y: nat)
    ensures var r := DrawFrom(d, lines, y, 0);
            r.1 <==> exists row :: 0 <= row < |d| && Darkens(d[row], r.0[row])
  {
    var r := DrawFrom(d, lines, y, 0);
    var k := Reach(|lines|, y, |d|);
    DrawFromHit(d, lines, y, 0);
    if r.1 {
      var row :| y <= row < y + k && Meets(d[row], lines[row - y]);
      DrawFromRow(d, lines, y, 0, row);
      DarkensIffMeets(d[row], lines[row - y]);
    }
    if exists row :: 0 <= row < |d| && Darkens(d[row], r.0[row]) {
      var row :| 0 <= row < |d| && Darkens(d[row], r.0[row]);
      DrawFromRow(d, lines, y, 0, row);
      if y <= row < y + k {
        DarkensIffMeets(d[row], lines[row - y]);
      } else {
        NothingDarkensItself(d[row]);
      }
    }
  }

  /** The display `after` is `before` with the `n`-byte sprite stored at
      `base` drawn at column `x` and row `y`: each row the sprite reaches is
      XORed with the memory byte for that row, placed at column `x`, and
      every other row is unchanged. */
  predicate SpriteRows(before: seq<bv64>, after: seq<bv64>, mem: seq<byte>, base: nat, x: bv6, n: nat, y: nat) {
    var k := Reach(|Sprite(mem, base, x, n)|, y, |before|);
    && |after| == |before|
    && forall row :: 0 <= row < |before| ==>
         if y <= row < y + k then
           && base + (row - y) < |mem|
           && after[row] == Toggle(before[row], SpriteLine(mem[base + (row - y)], x))
         else after[row] == before[row]
  }

  /** Drawing the `n`-byte sprite stored at `base` at column `x` and row `y`,
      with the flag saying whether some lit pixel went dark. */
  function SpriteDraw(d: seq<bv64>, mem: seq<byte>, base: nat, x: bv6, n: nat, y: nat): (r: (seq<bv64>, bool))
    ensures SpriteRows(d, r.0, mem, base, x, n, y)
    ensures r.1 <==> exists row :: 0 <= row < |d| && Darkens(d[row], r.0[row])
  {
    var lines := Sprite(mem, base, x, n);
    CollisionMeansPixelCleared(d, lines, y);
    DrawSpriteRows(d, mem, base, x, n, y);
    DrawFrom(d, lines, y, 0)
  }

  /** The draw loop run over a sprite's lines changes the rows as
      `SpriteRows` says. */
  lemma DrawSpriteRows(d: seq<bv64>, mem: seq<byte>, base: nat, x: bv6, n: nat, y: nat)
    ensures SpriteRows(d, DrawFrom(d, Sprite(mem, base, x, n), y, 0).0, mem, base, x, n, y)
  {
    var lines := Sprite(mem, base, x, n);
    var after := DrawFrom(d, lines, y, 0).0;
    var k := Reach(|lines|, y, |d|);
    forall row | 0 <= row < |d|
      ensures if y <= row < y + k then
                && base + (row - y) < |mem|
                && after[row] == Toggle(d[row], SpriteLine(mem[base + (row - y)], x))
              else after[row] == d[row]
    {
      DrawFromRow(d, lines, y, 0, row);
      if y <= row < y + k {
        assert lines[row - y] == SpriteLine(mem[base + (row - y)], x);
      }
    }
  }

  /** Drawing the same sprite twice in a row restores the framebuffer. */
  lemma DrawTwiceRestores(d: seq<bv64>, lines: seq<bv64>, y: nat)
    ensures DrawFrom(DrawFrom(d, lines, y, 0).0, lines, y, 0).0 == d
  {
    var d1 := DrawFrom(d, lines, y, 0).0;
    var d2 := DrawFrom(d1, lines, y, 0).0;
    forall row | 0 <= row < |d|
      ensures d2[row] == d[row]
    {
      DrawFromRow(d, lines, y, 0, row);
      DrawFromRow(d1, lines, y, 0, row);
      if y <= row < y + Reach(|lines|, y, |d|) {
        ToggleTwice(d[row], lines[row - y]);
      }
    }
  }

  /** The second of two identical draws reports a collision exactly when the
      first one switched some dark pixel on. */
  lemma SecondDrawCollision(d: seq<bv64>, lines: seq<bv64>, y: nat)
    ensures var d1 := DrawFrom(d, lines, y, 0).0;
            DrawFrom(d1, lines, y, 0).1 <==> exists row :: 0 <= row < |d| && Darkens(d1[row], d[row])
  {
    var d1 := DrawFrom(d, lines, y, 0).0;
    var k := Reach(|lines|, y, |d|);
    DrawFromHit(d1, lines, y, 0);
    if DrawFrom(d1, lines, y, 0).1 {
      var row :| y <= row < y + k && Meets(d1[row], lines[row - y]);
      DrawFromRow(d, lines, y, 0, row);
      MeetsAfterToggle(d[row], lines[row - y]);
    }
    if exists row :: 0 <= row < |d| && Darkens(d1[row], d[row]) {
      var row :| 0 <= row < |d| && Darkens(d1[row], d[row]);
      DrawFromRow(d, lines, y, 0, row);
      if y <= row < y + k {
        MeetsAfterToggle(d[row], lines[row - y]);
      } else {
        NothingDarkensItself(d[row]);
      }
    }
  }
}

=== FILE: interpreter.dfy ===
/** One call of `step`: tick the timers, poll the keypad and resolve a
    pending key-wait, then fetch one instruction and run its handler. The
    key snapshot and the byte that `rand()` would produce are inputs. */
module Interpreter {
  import opened Types
  import opened Storage
  import opened Decode
  import opened Bits
  import opened Keypad
  import opened Pixels
  import opened Display
  import opened Alu
  import opened Chip8

  /** A machine after an instruction, and whether the display was handed to
      the screen (only a sprite draw does that). */
  datatype Effect = Effect(machine: Machine, drew: bool)

  /** What `step` reports: the new machine, its boolean result ("keep
      running") and whether the display was handed to the screen. */
  datatype Outcome = Outcome(machine: Machine, running: bool, drew: bool)

  // ---------------------------------------------------------------------
  // Timers and keypad

  /** `handleStep`: each timer that is not zero goes down by one. */
  function Tick(m: Machine): (r: Machine)
    ensures r.delay + 1 == m.delay || r.delay == m.delay == 0
    ensures r.sound + 1 == m.sound || r.sound == m.sound == 0
    ensures r == m.(delay := r.delay, sound := r.sound)
  {
    m.(delay := if m.delay > 0 then m.delay - 1 else 0,
       sound := if m.sound > 0 then m.sound - 1 else 0)
  }

  /** `n` consecutive ticks. */
  function Ticks(m: Machine, n: nat): Machine
    decreases n
  {
    if n == 0 then m else Ticks(Tick(m), n - 1)
  }

  /** Timers count down one per tick and stop at zero. */
  lemma {:induction false} TicksCountDown(m: Machine, n: nat)
    ensures Ticks(m, n).delay == if m.delay >= n then m.delay - n else 0
    ensures Ticks(m, n).sound == if m.sound >= n then m.sound - n else 0
    ensures Ticks(m, n) == m.(delay := Ticks(m, n).delay, sound := Ticks(m, n).sound)
    decreases n
  {
    if n > 0 {
      TicksCountDown(Tick(m), n - 1);
    }
  }

  /** `handleGetKey`: store the snapshot; if a key-wait is pending and some key
      is down, write the highest pressed key into the wait register and clear
      the wait. */
  function Poll(m: Machine, keys: Keys): (r: Machine)
    requires |m.regs| == 16
    ensures |r.regs| == 16 && r.keys == keys
    ensures r.waiting <==> m.waiting && !AnyPressed(keys)
    ensures m.waiting && AnyPressed(keys) ==>
              var k := r.regs[m.waitReg];
              && r.regs == m.regs[m.waitReg := k]
              && k < 16 && keys[k] && forall j :: k < j < 16 ==> !keys[j]
    ensures !(m.waiting && AnyPressed(keys)) ==> r.regs == m.regs
    ensures r == m.(keys := keys, waiting := r.waiting, regs := r.regs)
  {
    var polled := m.(keys := keys);
    if AnyPressed(keys) && m.waiting then
      polled.(regs := m.regs[m.waitReg := ScanKeys(keys, 0, m.regs[m.waitReg])], waiting := false)
    else
      polled
  }

  // ---------------------------------------------------------------------
  // Fetch

  /** An instruction word and the machine with pc moved past it. */
  datatype Fetched = Fetched(op: Word, next: Machine)

  /** `readOpCode`: the big-endian word at pc; pc advances by two. Either
      byte lying outside memory is an OutOfBounds fault. */
  function Fetch(m: Machine): (r: Result<Fetched>)
    ensures r.Err? <==> m.pc + 1 >= |m.memory|
    ensures r.Err? ==> r.fault == OutOfBounds
    ensures r.Ok? ==> && r.value.op / 256 == m.memory[m.pc]
                      && r.value.op % 256 == m.memory[m.pc + 1]
                      && r.value.next == m.(pc := m.pc + 2)
  {
    if m.pc + 1 < |m.memory| then
      Ok(Fetched(Join(m.memory[m.pc], m.memory[m.pc + 1]), m.(pc := m.pc + 2)))
    else
      Err(OutOfBounds)
  }

  // ---------------------------------------------------------------------
  // Instruction handlers. Each receives the machine with pc already past
  // the instruction.

  /** The instructions the source gives a meaning to: a return needs a
      return address on the stack, and a key test needs Vx to name a key. */
  predicate Defined(m: Machine, op: Word)
    requires |m.regs| == 16
  {
    && (op == 0x00EE ==> |m.stack| > 0)
    && (Arg(op, 0) == 0xE ==> m.regs[Arg(op, 1)] < 16)
  }

  /** A conditional skip: pc moves past the next instruction exactly when
      `cond` holds. */
  function SkipIf(m: Machine, cond: bool): (r: Machine)
    ensures r.pc == m.pc + 2 <==> cond
    ensures !cond ==> r == m
    ensures r == m.(pc := r.pc)
  {
    if cond then m.(pc := m.pc + 2) else m
  }

  /** Write one register. */
  function SetReg(m: Machine, x: RegIndex, v: byte): (r: Machine)
    requires |m.regs| == 16
    ensures |r.regs| == 16 && r.regs[x] == v
    ensures forall k :: 0 <= k < 16 && k != x ==> r.regs[k] == m.regs[k]
    ensures r == m.(regs := r.regs)
  {
    m.(regs := m.regs[x := v])
  }

  /** Class 0: `00E0` clears the display to 32 dark rows, `00EE` returns to
      the address on top of the stack, any other `0nnn` jumps to nnn. */
  function System(m: Machine, op: Word): (r: Machine)
    requires Arg(op, 0) == 0 && (op == 0x00EE ==> |m.stack| > 0)
    ensures op == 0x00E0 ==> r == m.(display := Blank())
    ensures op == 0x00EE ==> r.stack + [r.pc] == m.stack && r == m.(pc := r.pc, stack := r.stack)
    ensures op != 0x00E0 && op != 0x00EE ==> r == m.(pc := r.pc) && r.pc == op
  {
    if op == 0x00E0 then m.(display := Blank())
    else if op == 0x00EE then m.(pc := m.stack[|m.stack| - 1], stack := m.stack[..|m.stack| - 1])
    else m.(pc := Nnn(op))
  }

  /** `1nnn`: jump to nnn; a jump to the instruction's own address (two
      before the already advanced pc) also requests a stop. */
  function Jump(m: Machine, op: Word): (r: Machine)
    ensures r.pc == Nnn(op)
    ensures r.stopped <==> m.stopped || m.pc == Nnn(op) + 2
    ensures r == m.(pc := r.pc, stopped := r.stopped)
  {
    var target := Nnn(op);
    m.(pc := target, stopped := m.stopped || m.pc as int - 2 == target)
  }

  /** `2nnn`: push the return address (the advanced pc) and jump to nnn. */
  function Call(m: Machine, op: Word): (r: Machine)
    ensures r.stack == m.stack + [m.pc] && r.pc == Nnn(op)
    ensures r == m.(pc := r.pc, stack := r.stack)
  {
    m.(stack := m.stack + [m.pc], pc := Nnn(op))
  }

  /** `Dxyn`: XOR the n-byte sprite at I into the display at column Vx mod
      64 and row Vy mod 32, stopping at the bottom row and at the end of
      memory; VF becomes 1 exactly when the draw switched a lit pixel off. */
  function DrawSprite(m: Machine, x: RegIndex, y: RegIndex, n: nat): (r: Machine)
    requires Valid(m)
    ensures Valid(r)
    ensures r == m.(display := r.display, regs := m.regs[FlagReg := r.regs[FlagReg]])
    ensures r.regs[FlagReg] == 1 <==> exists row :: 0 <= row < Rows && Darkens(m.display[row], r.display[row])
    ensures r.regs[FlagReg] <= 1
    ensures SpriteRows(m.display, r.display, m.memory, m.i, Column(m.regs[x]), n, m.regs[y] % 32)
  {
    var drawn := SpriteDraw(m.display, m.memory, m.i, Column(m.regs[x]), n, m.regs[y] % 32);
    m.(display := drawn.0, regs := m.regs[FlagReg := if drawn.1 then 1 else 0])
  }

  /** `Ex9E` / `ExA1`: skip when key Vx is / is not pressed; any other `Ex__`
      only reads the key. */
  function KeySkip(m: Machine, x: RegIndex, kk: byte): (r: Machine)
    requires |m.regs| == 16 && m.regs[x] < 16
    ensures kk == 0x9E ==> (r.pc == m.pc + 2 <==> m.keys[m.regs[x]])
    ensures kk == 0xA1 ==> (r.pc == m.pc + 2 <==> !m.keys[m.regs[x]])
    ensures kk != 0x9E && kk != 0xA1 ==> r == m
    ensures r.pc == m.pc || r.pc == m.pc + 2
    ensures r == m.(pc := r.pc)
  {
    var pressed := m.keys[m.regs[x]];
    if kk == 0x9E then SkipIf(m, pressed)
    else if kk == 0xA1 then SkipIf(m, !pressed)
    else m
  }

  /** `Fx33`: the decimal digits of Vx at I, I+1, I+2, hundreds first. The
      first write is to I+2, so an I+2 outside memory faults before anything
      is written. */
  function StoreBcd(m: Machine, x: RegIndex): (r: Result<Machine>)
    requires Valid(m)
    ensures r.Err? <==> m.i + 2 >= MemSize
    ensures r.Err? ==> r.fault == OutOfBounds
    ensures r.Ok? ==> var mem := r.value.memory;
              && |mem| == MemSize
              && mem[m.i] < 10 && mem[m.i + 1] < 10 && mem[m.i + 2] < 10
              && 100 * mem[m.i] as int + 10 * mem[m.i + 1] as int + mem[m.i + 2] as int == m.regs[x]
              && (forall j :: 0 <= j < MemSize && !(m.i <= j <= m.i + 2) ==> mem[j] == m.memory[j])
              && r.value == m.(memory := mem)
  {
    if m.i + 2 >= |m.memory| then Err(OutOfBounds)
    else
      var digits := Bcd(m.regs[x]);
      Ok(m.(memory := m.memory[m.i + 2 := digits.2][m.i + 1 := digits.1][m.i := digits.0]))
  }

  /** `Fx55`: V0..Vx stored at I..I+x, lowest first; I is not changed. The
      write that first falls outside memory faults. */
  function DumpRegs(m: Machine, x: RegIndex): (r: Result<Machine>)
    requires Valid(m)
    ensures r.Err? <==> m.i + x >= MemSize
    ensures r.Err? ==> r.fault == OutOfBounds
    ensures r.Ok? ==> var mem := r.value.memory;
              && |mem| == MemSize
              && (forall k :: 0 <= k <= x ==> mem[m.i + k] == m.regs[k])
              && (forall j :: 0 <= j < MemSize && !(m.i <= j <= m.i + x) ==> mem[j] == m.memory[j])
              && r.value == m.(memory := mem)
  {
    if m.i + x >= |m.memory| then Err(OutOfBounds)
    else Ok(m.(memory := Copy(m.memory, m.regs[..x + 1], m.i)))
  }

  /** `Fx65`: V0..Vx loaded from I..I+x; I is not changed. */
  function LoadRegs(m: Machine, x: RegIndex): (r: Result<Machine>)
    requires Valid(m)
    ensures r.Err? <==> m.i + x >= MemSize
    ensures r.Err? ==> r.fault == OutOfBounds
    ensures r.Ok? ==> var regs := r.value.regs;
              && |regs| == 16
              && (forall k :: 0 <= k <= x ==> regs[k] == m.memory[m.i + k])
              && (forall k :: x < k < 16 ==> regs[k] == m.regs[k])
              && r.value == m.(regs := regs)
  {
    if m.i + x >= |m.memory| then Err(OutOfBounds)
    else Ok(m.(regs := Copy(m.regs, m.memory[m.i..m.i + x + 1], 0)))
  }

  /** Class F, selected by the low byte; an unknown low byte does nothing. */
  function Misc(m: Machine, x: RegIndex, kk: byte): (r: Result<Machine>)
    requires Valid(m)
    ensures r.Err? <==> (kk == 0x33 && m.i + 2 >= MemSize) || ((kk == 0x55 || kk == 0x65) && m.i + x >= MemSize)
    ensures r.Ok? ==> Valid(r.value)
    ensures r.Ok? && kk == 0x07 ==> r.value == SetReg(m, x, m.delay % 256)
    ensures r.Ok? && kk == 0x0A ==> r.value == m.(waiting := true, waitReg := x)
    ensures r.Ok? && kk == 0x15 ==> r.value == m.(delay := m.regs[x])
    ensures r.Ok? && kk == 0x18 ==> r.value == m.(sound := m.regs[x])
    ensures r.Ok? && kk == 0x1E ==> r.value == m.(i := m.i + m.regs[x])
    ensures r.Ok? && kk == 0x29 ==> r.value == m.(i := GlyphSize * m.regs[x])
    ensures kk !in {0x07, 0x0A, 0x15, 0x18, 0x1E, 0x29, 0x33, 0x55, 0x65} ==> r == Ok(m)
    ensures kk == 0x33 ==> r == StoreBcd(m, x)
    ensures kk == 0x55 ==> r == DumpRegs(m, x)
    ensures kk == 0x65 ==> r == LoadRegs(m, x)
  {
    match kk
    case 0x07 => Ok(SetReg(m, x, m.delay % 256))
    case 0x0A => Ok(m.(waitReg := x, waiting := true))
    case 0x15 => Ok(m.(delay := m.regs[x]))
    case 0x18 => Ok(m.(sound := m.regs[x]))
    case 0x1E => Ok(m.(i := m.i + m.regs[x]))
    case 0x29 => Ok(m.(i := m.regs[x] * GlyphSize))
    case 0x33 => StoreBcd(m, x)
    case 0x55 => DumpRegs(m, x)
    case 0x65 => LoadRegs(m, x)
    case _ => Ok(m)
  }

  /** The faults an instruction raises once fetched: an undefined `8xy_`
      sub-opcode, and the memory accesses of `Fx33`, `Fx55`, `Fx65`. */
  predicate Faults(m: Machine, op: Word) {
    || (Arg(op, 0) == 8 && !Supported(Arg(op, 3)))
    || (Arg(op, 0) == 0xF && Kk(op) == 0x33 && m.i + 2 >= MemSize)
    || (Arg(op, 0) == 0xF && (Kk(op) == 0x55 || Kk(op) == 0x65) && m.i + Arg(op, 1) >= MemSize)
  }

  /** The classes that only steer control: `0nnn`, `1nnn`, `2nnn`, the
      skips `3xkk`, `4xkk`, `5xy_`, `9xy_`, `Ex__`, and `Bnnn` (jump to
      nnn + V0). They touch nothing but pc, the stack, the stop request and,
      for `00E0`, the display. */
  function Flow(m: Machine, op: Word): (r: Machine)
    requires Valid(m) && Defined(m, op)
    requires Arg(op, 0) in {0x0, 0x1, 0x2, 0x3, 0x4, 0x5, 0x9, 0xB, 0xE}
    ensures Valid(r)
    ensures r.stopped <==> m.stopped || (Arg(op, 0) == 1 && m.pc == Nnn(op) + 2)
    ensures r == m.(pc := r.pc, stack := r.stack, stopped := r.stopped, display := r.display)
    ensures Arg(op, 0) in {0x1, 0x2} ==> r.pc == Nnn(op)
    ensures Arg(op, 0) == 0x2 ==> r.stack == m.stack + [m.pc]
    ensures Arg(op, 0) in {0x3, 0x4, 0x5, 0x9, 0xB, 0xE} ==> r == m.(pc := r.pc)
    ensures Arg(op, 0) in {0x3, 0x4, 0x5, 0x9} ==> r.pc == m.pc || r.pc == m.pc + 2
    ensures Arg(op, 0) == 0x3 ==> (r.pc == m.pc + 2 <==> m.regs[Arg(op, 1)] == Kk(op))
    ensures Arg(op, 0) == 0x4 ==> (r.pc == m.pc + 2 <==> m.regs[Arg(op, 1)] != Kk(op))
    ensures Arg(op, 0) == 0x5 ==> (r.pc == m.pc + 2 <==> m.regs[Arg(op, 1)] == m.regs[Arg(op, 2)])
    ensures Arg(op, 0) == 0x9 ==> (r.pc == m.pc + 2 <==> m.regs[Arg(op, 1)] != m.regs[Arg(op, 2)])
    ensures Arg(op, 0) == 0xB ==> r.pc == m.regs[0] + Nnn(op)
  {
    var x := Arg(op, 1);
    var y := Arg(op, 2);
    var kk := Kk(op);
    match Arg(op, 0)
    case 0x0 => System(m, op)
    case 0x1 => Jump(m, op)
    case 0x2 => Call(m, op)
    case 0x3 => SkipIf(m, m.regs[x] == kk)
    case 0x4 => SkipIf(m, m.regs[x] != kk)
    case 0x5 => SkipIf(m, m.regs[x] == m.regs[y])
    case 0x9 => SkipIf(m, m.regs[x] != m.regs[y])
    case 0xB => m.(pc := m.regs[0] + Nnn(op))
    case 0xE => KeySkip(m, x, kk)
  }

  /** The classes that load and draw: `6xkk`, `7xkk` (no carry), `Annn`,
      `Cxkk` with the random byte `rnd`, and `Dxyn`. They touch nothing but
      the registers, I and the display. */
  function Data(m: Machine, op: Word, rnd: byte): (r: Machine)
    requires Valid(m)
    requires Arg(op, 0) in {0x6, 0x7, 0xA, 0xC, 0xD}
    ensures Valid(r)
    ensures r == m.(regs := r.regs, i := r.i, display := r.display)
    ensures Arg(op, 0) != 0xD ==> r.display == m.display
    ensures Arg(op, 0) == 0xA ==> r == m.(i := Nnn(op))
    ensures Arg(op, 0) in {0x6, 0x7, 0xC} ==>
              && r == m.(regs := r.regs)
              && forall k :: 0 <= k < 16 && k != Arg(op, 1) ==> r.regs[k] == m.regs[k]
    ensures Arg(op, 0) == 0x6 ==> r.regs[Arg(op, 1)] == Kk(op)
    ensures Arg(op, 0) == 0x7 ==> r.regs[Arg(op, 1)] == (m.regs[Arg(op, 1)] as int + Kk(op)) % 256
    ensures Arg(op, 0) == 0xC ==> r.regs[Arg(op, 1)] == ByteAnd(rnd, Kk(op)) <= Kk(op)
    ensures Arg(op, 0) == 0xD ==> r == DrawSprite(m, Arg(op, 1), Arg(op, 2), Arg(op, 3))
  {
    var x := Arg(op, 1);
    var kk := Kk(op);
    match Arg(op, 0)
    case 0x6 => SetReg(m, x, kk)
    case 0x7 => SetReg(m, x, (m.regs[x] as int + kk) % 256)
    case 0xA => m.(i := Nnn(op))
    case 0xC => AndBelowMask(rnd, kk, 8); SetReg(m, x, ByteAnd(rnd, kk))
    case 0xD => DrawSprite(m, x, Arg(op, 2), Arg(op, 3))
  }

  /** Dispatch on the class nibble to one of the sixteen handlers. */
  function Execute(m: Machine, op: Word, rnd: byte): (r: Result<Effect>)
    requires Valid(m) && Defined(m, op)
    ensures r.Err? <==> Faults(m, op)
    ensures r.Ok? ==> Valid(r.value.machine)
    ensures r.Ok? ==> (r.value.drew <==> Arg(op, 0) == 0xD)
    ensures r.Ok? ==> (r.value.machine.stopped <==> m.stopped || (Arg(op, 0) == 1 && m.pc == Nnn(op) + 2))
    ensures r.Ok? ==> r.value.machine.memory == m.memory || (Arg(op, 0) == 0xF && Kk(op) in {0x33, 0x55})
    ensures r.Ok? ==> r.value.machine.delay == m.delay || (Arg(op, 0) == 0xF && Kk(op) == 0x15)
    ensures r.Ok? ==> r.value.machine.sound == m.sound || (Arg(op, 0) == 0xF && Kk(op) == 0x18)
  {
    var kind := Arg(op, 0);
    if kind == 0x8 then
      var regs :- Arith(m.regs, Arg(op, 1), Arg(op, 2), Arg(op, 3));
      Ok(Effect(m.(regs := regs), false))
    else if kind == 0xF then
      var next :- Misc(m, Arg(op, 1), Kk(op));
      Ok(Effect(next, false))
    else if kind in {0x6, 0x7, 0xA, 0xC, 0xD} then
      Ok(Effect(Data(m, op, rnd), kind == 0xD))
    else
      Ok(Effect(Flow(m, op), false))
  }

  // ---------------------------------------------------------------------
  // The step

  /** A machine that is not waiting fetches and runs one instruction;
      `running` is the source's `pc < memory size && !toStop`. */
  function Cycle(m: Machine, rnd: byte): (r: Result<Outcome>)
    requires Valid(m)
    requires m.pc + 1 < MemSize ==> Defined(m, Join(m.memory[m.pc], m.memory[m.pc + 1]))
    ensures r.Ok? ==> Valid(r.value.machine)
    ensures r.Ok? ==> (r.value.running <==> r.value.machine.pc < MemSize && !r.value.machine.stopped)
    ensures m.pc + 1 >= MemSize ==> r == Err(OutOfBounds)
    ensures m.pc + 1 < MemSize ==>
              r == match Execute(m.(pc := m.pc + 2), Join(m.memory[m.pc], m.memory[m.pc + 1]), rnd)
                   case Ok(e) => Ok(Outcome(e.machine, e.machine.pc < MemSize && !e.machine.stopped, e.drew))
                   case Err(f) => Err(f)
    ensures m.stopped && r.Ok? ==> r.value.machine.stopped && !r.value.running
  {
    var fetched :- Fetch(m);
    var effect :- Execute(fetched.next, fetched.op, rnd);
    var after := effect.machine;
    Ok(Outcome(after, after.pc < |after.memory| && !after.stopped, effect.drew))
  }

  /** The machine `step` executes on: timers ticked and keypad polled. */
  function Polled(m: Machine, keys: Keys): (r: Machine)
    requires Valid(m)
    ensures Valid(r)
  {
    Poll(Tick(m), keys)
  }

  /** The source's behaviour is defined for this step: a wait that persists
      runs nothing, and otherwise the fetched instruction is Defined. */
  predicate StepDefined(m: Machine, keys: Keys)
    requires Valid(m)
  {
    var p := Polled(m, keys);
    !p.waiting && p.pc + 1 < MemSize ==> Defined(p, Join(p.memory[p.pc], p.memory[p.pc + 1]))
  }

  /** `step`: while a key-wait persists, only the timers and the key snapshot
      change and the result is "not stopped"; otherwise one instruction is
      fetched and executed in the same call. */
  function Step(m: Machine, keys: Keys, rnd: byte): (r: Result<Outcome>)
    requires Valid(m) && StepDefined(m, keys)
    ensures r.Ok? ==> Valid(r.value.machine) && r.value.machine.keys == keys
    ensures r.Ok? ==> (r.value.running ==> !r.value.machine.stopped)
    ensures Polled(m, keys).waiting ==> r == Ok(Outcome(Polled(m, keys), !m.stopped, false))
    ensures !Polled(m, keys).waiting && r.Ok? ==>
              (r.value.running <==> r.value.machine.pc < MemSize && !r.value.machine.stopped)
    ensures m.stopped && r.Ok? ==> r.value.machine.stopped && !r.value.running
  {
    var p := Polled(m, keys);
    if p.waiting then Ok(Outcome(p, !p.stopped, false))
    else Cycle(p, rnd)
  }
}

=== FILE: keypad.dfy ===
/** The sixteen-key pad as the interpreter sees it: a snapshot with one
    pressed/released flag per key, and the scan that the wait-for-key
    instruction uses to pick a key from it. */
module Keypad {
  import opened Types

  /** One flag per key 0x0..0xF (a `std::bitset<16>`), index = key. */
  type Keys = s: seq<bool> | |s| == 16 witness seq(16, _ => false)

  /** The snapshot with no key pressed. */
  function NoKeys(): (k: Keys)
    ensures !AnyPressed(k)
  {
    seq(16, _ => false)
  }

  /** `bitset::any`: at least one key is pressed. */
  predicate AnyPressed(keys: Keys) {
    exists k :: 0 <= k < 16 && keys[k]
  }

  /** The wait-for-key scan from key `i` on: it walks the keys upwards and
      overwrites `acc` with every pressed key it meets, so it ends with the
      highest pressed key, or with `acc` untouched when none is pressed. */
  function ScanKeys(keys: Keys, i: nat, acc: byte): (r: byte)
    requires i <= 16
    ensures (exists k :: i <= k < 16 && keys[k]) ==>
              i <= r < 16 && keys[r] && forall k :: r < k < 16 ==> !keys[k]
    ensures (forall k :: i <= k < 16 ==> !keys[k]) ==> r == acc
    decreases 16 - i
  {
    if i == 16 then acc
    else ScanKeys(keys, i + 1, if keys[i] then i else acc)
  }
}

=== FILE: machine.dfy ===
/** The interpreter's state and the two operations that act on it from the
    outside: loading a program image and requesting a stop. */
module Chip8 {
  import opened Types
  import opened Storage
  import opened Keypad
  import opened Display

  /** The complete state of one interpreter. `waiting` / `waitReg` are the
      pending key-wait and its target register; `stopped` is the stop
      request, set from outside or by a jump to itself. */
  datatype Machine = Machine(
    memory: seq<byte>,
    regs: seq<byte>,
    i: nat,
    pc: nat,
    stack: seq<nat>,
    delay: nat,
    sound: nat,
    keys: Keys,
    waiting: bool,
    waitReg: RegIndex,
    display: seq<bv64>,
    stopped: bool)

  /** The container sizes that loading establishes and every instruction keeps. */
  predicate Valid(m: Machine) {
    |m.memory| == MemSize && |m.regs| == 16 && |m.display| == Rows
  }

  /** A default-constructed interpreter: every container empty, every scalar zero. */
  function Fresh(): (m: Machine)
    ensures m.memory == [] && m.regs == [] && m.display == [] && m.stack == []
    ensures m.pc == 0 && m.i == 0 && m.delay == 0 && m.sound == 0 && !m.waiting && !m.stopped
  {
    Machine([], [], 0, 0, [], 0, 0, NoKeys(), false, 0, [], false)
  }

  /** `load`: size the containers, blank the display, put the font at address
      0 and the program at MemStart, and start at MemStart. Registers and the
      memory outside the two images keep what they held; I, the timers, the
      stack and the pending flags are not reset. */
  function Load(m: Machine, p: seq<byte>): (r: Machine)
    requires |p| <= MaxProgram
    ensures Valid(r)
    ensures r.pc == MemStart
    ensures forall j :: 0 <= j < |Font| ==> r.memory[j] == Font[j]
    ensures forall j :: 0 <= j < |p| ==> r.memory[MemStart + j] == p[j]
    ensures forall j :: |Font| <= j < MemSize && !(MemStart <= j < MemStart + |p|) ==>
              r.memory[j] == if j < |m.memory| then m.memory[j] else 0
    ensures forall j :: 0 <= j < 16 ==> r.regs[j] == if j < |m.regs| then m.regs[j] else 0
    ensures forall row :: 0 <= row < Rows ==> r.display[row] == 0
    ensures r == m.(memory := r.memory, regs := r.regs, display := r.display, pc := MemStart)
  {
    m.(regs := Resize(m.regs, 16),
       memory := Image(m.memory, Font, p),
       display := Blank(),
       pc := MemStart)
  }

  /** Loading the same program twice leaves the machine as one load does. */
  lemma LoadTwice(m: Machine, p: seq<byte>)
    requires |p| <= MaxProgram
    ensures Load(Load(m, p), p) == Load(m, p)
  {
    ImageTwice(m.memory, Font, p);
    ResizeToOwnSize(Resize(m.regs, 16));
  }

  /** Loading into a fresh interpreter: the font, then zeros up to MemStart,
      then the program, then zeros to the end of memory; all registers zero,
      the display blank and nothing pending. */
  lemma LoadFresh(p: seq<byte>)
    requires |p| <= MaxProgram
    ensures var r := Load(Fresh(), p);
            && Valid(r) && r.pc == MemStart && r.i == 0 && r.stack == []
            && r.delay == 0 && r.sound == 0
            && !r.waiting && !r.stopped
            && r.memory[..|Font|] == Font
            && r.memory[MemStart..MemStart + |p|] == p
            && (forall j :: |Font| <= j < MemStart ==> r.memory[j] == 0)
            && (forall j :: MemStart + |p| <= j < MemSize ==> r.memory[j] == 0)
            && (forall j :: 0 <= j < 16 ==> r.regs[j] == 0)
            && r.display == Blank()
  {
    ImageOfEmpty(Font, p);
    assert Load(Fresh(), p).display == Blank();
  }

  /** `stop`: request that the run ends; nothing else changes. */
  function Stop(m: Machine): (r: Machine)
    ensures r.stopped
    ensures r.(stopped := m.stopped) == m
  {
    m.(stopped := true)
  }
}

=== FILE: properties.dfy ===
/** Properties of whole `step` calls and of instruction sequences. */
module Properties {
  import opened Types
  import opened Storage
  import opened Decode
  import opened Bits
  import opened Keypad
  import opened Pixels
  import opened Display
  import opened Alu
  import opened Chip8
  import opened Interpreter

  /** While a key-wait persists, a step with no key down changes nothing but
      the timers and the snapshot, and reports "not stopped". */
  lemma SuspendedStep(m: Machine, rnd: byte)
    requires Valid(m) && m.waiting
    ensures StepDefined(m, NoKeys())
    ensures var r := Step(m, NoKeys(), rnd);
            && r.Ok? && r.value.running == !m.stopped && !r.value.drew
            && r.value.machine == Tick(m).(keys := NoKeys())
  {
  }

  /** The first snapshot with a key down resolves the wait: the highest
      pressed key goes into the wait register, and the same step goes on to
      fetch and execute the next instruction. */
  lemma ResumingStep(m: Machine, keys: Keys, rnd: byte)
    requires Valid(m) && m.waiting && AnyPressed(keys)
    ensures var p := Polled(m, keys);
            && !p.waiting
            && var k := p.regs[m.waitReg];
            && k < 16 && keys[k] && (forall j :: k < j < 16 ==> !keys[j])
            && p == Tick(m).(keys := keys, waiting := false, regs := m.regs[m.waitReg := k])
            && (StepDefined(m, keys) ==> Step(m, keys, rnd) == Cycle(p, rnd))
  {
  }

  /** A step that runs an instruction fetches the big-endian word at pc,
      moves pc past it, executes it and reports the outcome. */
  lemma StepFetchesThenExecutes(m: Machine, keys: Keys, rnd: byte)
    requires Valid(m) && StepDefined(m, keys)
    requires !Polled(m, keys).waiting && m.pc + 1 < MemSize
    ensures var p := Polled(m, keys);
            var op := Join(m.memory[m.pc], m.memory[m.pc + 1]);
            && op / 256 == m.memory[m.pc] && op % 256 == m.memory[m.pc + 1]
            && Defined(p.(pc := m.pc + 2), op)
            && Step(m, keys, rnd) == match Execute(p.(pc := m.pc + 2), op, rnd)
                                     case Ok(e) =>
                                       Ok(Outcome(e.machine, e.machine.pc < MemSize && !e.machine.stopped, e.drew))
                                     case Err(f) => Err(f)
  {
    var p := Polled(m, keys);
    var op := Join(m.memory[m.pc], m.memory[m.pc + 1]);
    assert p.pc == m.pc && p.memory == m.memory;
    assert Fetch(p) == Ok(Fetched(op, p.(pc := m.pc + 2)));
    assert Step(m, keys, rnd) == Cycle(p, rnd);
  }

  /** Every step that completes ticks the timers, unless the instruction it
      ran set that timer. */
  lemma StepTicksTimers(m: Machine, keys: Keys, rnd: byte)
    requires Valid(m) && StepDefined(m, keys)
    requires m.pc + 1 < MemSize
    requires var op := Join(m.memory[m.pc], m.memory[m.pc + 1]);
             Arg(op, 0) != 0xF || (Kk(op) != 0x15 && Kk(op) != 0x18)
    ensures var r := Step(m, keys, rnd);
            r.Ok? ==> r.value.machine.delay == Tick(m).delay && r.value.machine.sound == Tick(m).sound
  {
    var p := Polled(m, keys);
    if !p.waiting {
      var op := Join(m.memory[m.pc], m.memory[m.pc + 1]);
      assert Fetch(p) == Ok(Fetched(op, p.(pc := m.pc + 2)));
    }
  }

  /** A `1nnn` that jumps to its own address stops the machine: pc stays on
      it and the step reports that the run is over. */
  lemma JumpToSelfStops(m: Machine, keys: Keys, rnd: byte)
    requires Valid(m) && !m.waiting && m.pc + 1 < MemSize
    requires Join(m.memory[m.pc], m.memory[m.pc + 1]) == 0x1000 + m.pc
    ensures StepDefined(m, keys)
    ensures var r := Step(m, keys, rnd);
            r.Ok? && r.value.machine.stopped && !r.value.running && r.value.machine.pc == m.pc
  {
    var op := Join(m.memory[m.pc], m.memory[m.pc + 1]);
    assert Arg(op, 0) == 1 && Nnn(op) == m.pc;
    var n := Polled(m, keys).(pc := m.pc + 2);
    StepFetchesThenExecutes(m, keys, rnd);
    assert Execute(n, op, rnd) == Ok(Effect(Flow(n, op), false));
  }

  /** After `stop`, the next step that completes reports that the run is over. */
  lemma StopEndsRun(m: Machine, keys: Keys, rnd: byte)
    requires Valid(m) && StepDefined(Stop(m), keys)
    ensures var r := Step(Stop(m), keys, rnd);
            r.Ok? ==> !r.value.running && r.value.machine.stopped
  {
  }

  /** A step running `2nnn` pushes the address after the call and moves pc
      to nnn. */
  lemma CallStep(m: Machine, keys: Keys, rnd: byte, target: nat)
    requires Valid(m) && !m.waiting && m.pc + 1 < MemSize && target < 0x1000
    requires Join(m.memory[m.pc], m.memory[m.pc + 1]) == 0x2000 + target
    ensures StepDefined(m, keys)
    ensures var r := Step(m, keys, rnd);
            && r.Ok?
            && r.value.machine == Polled(m, keys).(pc := target, stack := m.stack + [m.pc + 2])
  {
    var call := Join(m.memory[m.pc], m.memory[m.pc + 1]);
    assert Arg(call, 0) == 2 && Nnn(call) == target;
    var n := Polled(m, keys).(pc := m.pc + 2);
    StepFetchesThenExecutes(m, keys, rnd);
    assert Execute(n, call, rnd) == Ok(Effect(Call(n, call), false));
  }

  /** A step running `00EE` pops the top of the stack into pc. */
  lemma ReturnStep(m: Machine, keys: Keys, rnd: byte)
    requires Valid(m) && !m.waiting && m.pc + 1 < MemSize && |m.stack| > 0
    requires Join(m.memory[m.pc], m.memory[m.pc + 1]) == 0x00EE
    ensures StepDefined(m, keys)
    ensures var r := Step(m, keys, rnd);
            && r.Ok?
            && r.value.machine.stack + [r.value.machine.pc] == m.stack
            && r.value.machine == Polled(m, keys).(pc := r.value.machine.pc, stack := r.value.machine.stack)
  {
    var ret := Join(m.memory[m.pc], m.memory[m.pc + 1]);
    assert Arg(ret, 0) == 0;
    var n := Polled(m, keys).(pc := m.pc + 2);
    StepFetchesThenExecutes(m, keys, rnd);
    assert Execute(n, ret, rnd) == Ok(Effect(System(n, ret), false));
  }

  /** A `2nnn` whose target holds `00EE`: two steps later pc is just past
      the call and the stack is as it was. */
  lemma CallThenReturn(m: Machine, k1: Keys, k2: Keys, rnd: byte, target: nat)
    requires Valid(m) && !m.waiting && m.pc + 1 < MemSize
    requires target < 0x1000 && target + 1 < MemSize
    requires Join(m.memory[m.pc], m.memory[m.pc + 1]) == 0x2000 + target
    requires Join(m.memory[target], m.memory[target + 1]) == 0x00EE
    ensures StepDefined(m, k1)
    ensures var first := Step(m, k1, rnd);
            && first.Ok? && StepDefined(first.value.machine, k2)
            && var second := Step(first.value.machine, k2, rnd);
            && second.Ok?
            && second.value.machine.pc == m.pc + 2
            && second.value.machine.stack == m.stack
  {
    CallStep(m, k1, rnd, target);
    var first := Step(m, k1, rnd).value.machine;
    ReturnStep(first, k2, rnd);
  }

  /** A step running `6xkk` sets Vx to kk; `7xkk` adds kk to Vx modulo 256
      and leaves VF alone. Nothing else but pc moves. */
  lemma ImmediateStep(m: Machine, keys: Keys, rnd: byte)
    requires Valid(m) && !m.waiting && m.pc + 1 < MemSize
    requires var op := Join(m.memory[m.pc], m.memory[m.pc + 1]);
             Arg(op, 0) == 6 || Arg(op, 0) == 7
    ensures StepDefined(m, keys)
    ensures var op := Join(m.memory[m.pc], m.memory[m.pc + 1]);
            var x := Arg(op, 1);
            var p := Polled(m, keys);
            var r := Step(m, keys, rnd);
            && r.Ok?
            && r.value.machine.regs[x] == (if Arg(op, 0) == 6 then Kk(op) as int
                                            else (m.regs[x] as int + Kk(op)) % 256)
            && r.value.machine == p.(pc := m.pc + 2, regs := m.regs[x := r.value.machine.regs[x]])
  {
    var op := Join(m.memory[m.pc], m.memory[m.pc + 1]);
    var n := Polled(m, keys).(pc := m.pc + 2);
    StepFetchesThenExecutes(m, keys, rnd);
    assert Execute(n, op, rnd) == Ok(Effect(Data(n, op, rnd), false));
  }

  /** `6A02` then `7A05`: VA holds 7, pc has moved past both, and no other
      register changed. */
  lemma SetThenAdd(m: Machine, k1: Keys, k2: Keys, rnd: byte)
    requires Valid(m) && !m.waiting && m.pc + 3 < MemSize
    requires m.memory[m.pc] == 0x6A && m.memory[m.pc + 1] == 0x02
    requires m.memory[m.pc + 2] == 0x7A && m.memory[m.pc + 3] == 0x05
    ensures StepDefined(m, k1)
    ensures var first := Step(m, k1, rnd);
            && first.Ok? && StepDefined(first.value.machine, k2)
            && var second := Step(first.value.machine, k2, rnd);
            && second.Ok?
            && second.value.machine.regs[0xA] == 7
            && second.value.machine.pc == m.pc + 4
            && (forall k :: 0 <= k < 16 && k != 0xA ==> second.value.machine.regs[k] == m.regs[k])
  {
    assert Arg(0x6A02, 0) == 6 && Arg(0x6A02, 1) == 0xA && Kk(0x6A02) == 2;
    assert Arg(0x7A05, 0) == 7 && Arg(0x7A05, 1) == 0xA && Kk(0x7A05) == 5;
    ImmediateStep(m, k1, rnd);
    var first := Step(m, k1, rnd).value.machine;
    assert first.memory == m.memory && first.pc == m.pc + 2 && !first.waiting;
    ImmediateStep(first, k2, rnd);
  }

  /** `Fx55` then `Fx65` with the same x and I: the registers come back as
      they were. */
  lemma DumpThenLoad(m: Machine, x: RegIndex)
    requires Valid(m) && m.i + x < MemSize
    ensures var dumped := DumpRegs(m, x).value;
            LoadRegs(dumped, x) == Ok(dumped)
  {
    var dumped := DumpRegs(m, x).value;
    var loaded := LoadRegs(dumped, x).value;
    assert loaded.regs == dumped.regs;
  }

  /** `Fx65` then `Fx55` with the same x and I: memory comes back as it was. */
  lemma LoadThenDump(m: Machine, x: RegIndex)
    requires Valid(m) && m.i + x < MemSize
    ensures var loaded := LoadRegs(m, x).value;
            DumpRegs(loaded, x) == Ok(loaded)
  {
    var loaded := LoadRegs(m, x).value;
    var dumped := DumpRegs(loaded, x).value;
    assert dumped.memory == loaded.memory;
  }

  /** Drawing the same sprite twice, with neither coordinate in VF, gives the
      display back. */
  lemma DrawSpriteTwice(m: Machine, x: RegIndex, y: RegIndex, n: nat)
    requires Valid(m) && x != FlagReg && y != FlagReg
    ensures DrawSprite(DrawSprite(m, x, y, n), x, y, n).display == m.display
  {
    var once := DrawSprite(m, x, y, n);
    assert once.regs[x] == m.regs[x] && once.regs[y] == m.regs[y];
    DrawTwiceRestores(m.display, Sprite(m.memory, m.i, Column(m.regs[x]), n), m.regs[y] % 32);
  }

  /** `Cxkk` keeps only bits of kk: the register never exceeds the mask, and
      a zero mask always gives zero. */
  lemma RandomMasked(m: Machine, op: Word, rnd: byte)
    requires Valid(m) && Arg(op, 0) == 0xC
    ensures var r := Execute(m, op, rnd);
            && r.Ok? && r.value.machine.regs[Arg(op, 1)] <= Kk(op)
            && (Kk(op) == 0 ==> r.value.machine.regs[Arg(op, 1)] == 0)
  {
    AndBelowMask(rnd, Kk(op), 8);
  }

  /** A step running `8xyn` applies the ALU to the registers, and faults on
      an undefined n without changing anything it reports. */
  lemma ArithStep(m: Machine, keys: Keys, rnd: byte)
    requires Valid(m) && !m.waiting && m.pc + 1 < MemSize
    requires Arg(Join(m.memory[m.pc], m.memory[m.pc + 1]), 0) == 8
    ensures StepDefined(m, keys)
    ensures var op := Join(m.memory[m.pc], m.memory[m.pc + 1]);
            var alu := Arith(m.regs, Arg(op, 1), Arg(op, 2), Arg(op, 3));
            var r := Step(m, keys, rnd);
            && (r.Err? <==> !Supported(Arg(op, 3)))
            && (r.Err? ==> r.fault == UnsupportedOpcode)
            && (r.Ok? ==> r.value.machine == Polled(m, keys).(pc := m.pc + 2, regs := alu.value))
  {
    StepFetchesThenExecutes(m, keys, rnd);
  }

  /** A step running `Ex9E` or `ExA1` tests key Vx in the snapshot given to
      that same step. */
  lemma KeySkipStep(m: Machine, keys: Keys, rnd: byte)
    requires Valid(m) && !m.waiting && m.pc + 1 < MemSize
    requires var op := Join(m.memory[m.pc], m.memory[m.pc + 1]);
             Arg(op, 0) == 0xE && m.regs[Arg(op, 1)] < 16
    ensures StepDefined(m, keys)
    ensures var op := Join(m.memory[m.pc], m.memory[m.pc + 1]);
            var pressed := keys[m.regs[Arg(op, 1)]];
            var skip := (Kk(op) == 0x9E && pressed) || (Kk(op) == 0xA1 && !pressed);
            var r := Step(m, keys, rnd);
            && r.Ok? && !r.value.drew
            && r.value.machine == Polled(m, keys).(pc := if skip then m.pc + 4 else m.pc + 2)
  {
    var op := Join(m.memory[m.pc], m.memory[m.pc + 1]);
    var n := Polled(m, keys).(pc := m.pc + 2);
    StepFetchesThenExecutes(m, keys, rnd);
    assert Execute(n, op, rnd) == Ok(Effect(Flow(n, op), false));
    assert Flow(n, op) == KeySkip(n, Arg(op, 1), Kk(op));
  }

  /** A step running `Dxyn` hands the display to the screen and sets VF to 1
      exactly when some lit pixel went dark. */
  lemma DrawStep(m: Machine, keys: Keys, rnd: byte)
    requires Valid(m) && !m.waiting && m.pc + 1 < MemSize
    requires Arg(Join(m.memory[m.pc], m.memory[m.pc + 1]), 0) == 0xD
    ensures StepDefined(m, keys)
    ensures var r := Step(m, keys, rnd);
            && r.Ok? && r.value.drew
            && (r.value.machine.regs[FlagReg] == 1 <==>
                  exists row :: 0 <= row < Rows && Darkens(m.display[row], r.value.machine.display[row]))
            && r.value.machine.regs[FlagReg] <= 1
  {
    var op := Join(m.memory[m.pc], m.memory[m.pc + 1]);
    var n := Polled(m, keys).(pc := m.pc + 2);
    StepFetchesThenExecutes(m, keys, rnd);
    assert Execute(n, op, rnd) == Ok(Effect(Data(n, op, rnd), true));
    assert Data(n, op, rnd) == DrawSprite(n, Arg(op, 1), Arg(op, 2), Arg(op, 3));
  }

  /** The one-instruction program `1200`, loaded into a fresh interpreter,
      stops on its first step. */
  lemma SelfJumpProgramStops(keys: Keys, rnd: byte)
    ensures var m := Load(Fresh(), [0x12, 0x00]);
            && StepDefined(m, keys)
            && var r := Step(m, keys, rnd);
            && r.Ok? && !r.value.running && r.value.machine.pc == MemStart
  {
    var m := Load(Fresh(), [0x12, 0x00]);
    assert m.memory[MemStart + 0] == 0x12 && m.memory[MemStart + 1] == 0x00;
    JumpToSelfStops(m, keys, rnd);
  }

  /** A step running one of the register tests `3xkk`, `4xkk`, `5xy_` or
      `9xy_` moves pc past the next instruction exactly when its condition
      holds, and past the test itself otherwise; nothing else but the timers
      and the snapshot changes. */
  lemma SkipStep(m: Machine, keys: Keys, rnd: byte)
    requires Valid(m) && !m.waiting && m.pc + 1 < MemSize
    requires Arg(Join(m.memory[m.pc], m.memory[m.pc + 1]), 0) in {0x3, 0x4, 0x5, 0x9}
    ensures StepDefined(m, keys)
    ensures var op := Join(m.memory[m.pc], m.memory[m.pc + 1]);
            var vx := m.regs[Arg(op, 1)];
            var vy := m.regs[Arg(op, 2)];
            var cond := match Arg(op, 0)
                        case 3 => vx == Kk(op)
                        case 4 => vx != Kk(op)
                        case 5 => vx == vy
                        case _ => vx != vy;
            var r := Step(m, keys, rnd);
            && r.Ok? && !r.value.drew
            && r.value.machine == Polled(m, keys).(pc := r.value.machine.pc)
            && r.value.machine.pc == (if cond then m.pc + 4 else m.pc + 2)
  {
    var op := Join(m.memory[m.pc], m.memory[m.pc + 1]);
    var n := Polled(m, keys).(pc := m.pc + 2);
    StepFetchesThenExecutes(m, keys, rnd);
    assert Execute(n, op, rnd) == Ok(Effect(Flow(n, op), false));
  }

  /** A step running `Bnnn` jumps to nnn plus V0; the run goes on as long as
      that address is inside memory. */
  lemma OffsetJumpStep(m: Machine, keys: Keys, rnd: byte)
    requires Valid(m) && !m.waiting && m.pc + 1 < MemSize && !m.stopped
    requires Arg(Join(m.memory[m.pc], m.memory[m.pc + 1]), 0) == 0xB
    ensures StepDefined(m, keys)
    ensures var op := Join(m.memory[m.pc], m.memory[m.pc + 1]);
            var r := Step(m, keys, rnd);
            && r.Ok?
            && r.value.machine == Polled(m, keys).(pc := m.regs[0] + Nnn(op))
            && (r.value.running <==> m.regs[0] + Nnn(op) < MemSize)
  {
    var op := Join(m.memory[m.pc], m.memory[m.pc + 1]);
    var n := Polled(m, keys).(pc := m.pc + 2);
    StepFetchesThenExecutes(m, keys, rnd);
    assert Execute(n, op, rnd) == Ok(Effect(Flow(n, op), false));
  }

  /** A step running `Annn` points I at nnn and otherwise only moves pc. */
  lemma IndexStep(m: Machine, keys: Keys, rnd: byte)
    requires Valid(m) && !m.waiting && m.pc + 1 < MemSize
    requires Arg(Join(m.memory[m.pc], m.memory[m.pc + 1]), 0) == 0xA
    ensures StepDefined(m, keys)
    ensures var op := Join(m.memory[m.pc], m.memory[m.pc + 1]);
            var r := Step(m, keys, rnd);
            && r.Ok? && r.value.machine == Polled(m, keys).(pc := m.pc + 2, i := Nnn(op))
  {
    var op := Join(m.memory[m.pc], m.memory[m.pc + 1]);
    var n := Polled(m, keys).(pc := m.pc + 2);
    StepFetchesThenExecutes(m, keys, rnd);
    assert Execute(n, op, rnd) == Ok(Effect(Data(n, op, rnd), false));
  }

  /** After `8xy0`, the equality test `5xy_` on the same registers skips and
      `9xy_` does not. */
  lemma CopyThenCompare(m: Machine, op: Word)
    requires Valid(m) && Arg(op, 0) in {0x5, 0x9}
    ensures var moved := m.(regs := Arith(m.regs, Arg(op, 1), Arg(op, 2), 0).value);
            && Valid(moved)
            && (Flow(moved, op).pc == m.pc + 2 <==> Arg(op, 0) == 0x5)
  {
  }

  /** `Fx15` then `Fy07`: reading the delay timer straight after setting it
      gives back the value written. */
  lemma DelayReadBack(m: Machine, x: RegIndex, y: RegIndex)
    requires Valid(m)
    ensures var written := Misc(m, x, 0x15);
            && written.Ok?
            && var read := Misc(written.value, y, 0x07);
            && read.Ok? && read.value.regs[y] == m.regs[x]
  {
  }

  /** `Fx1E` twice moves I on by twice Vx: the first addition leaves Vx as it
      was, and nothing but I changes. */
  lemma IndexAddsTwice(m: Machine, x: RegIndex)
    requires Valid(m)
    ensures var once := Misc(m, x, 0x1E);
            && once.Ok?
            && var twice := Misc(once.value, x, 0x1E);
            && twice.Ok? && twice.value.i == m.i + 2 * m.regs[x] as int
            && twice.value == m.(i := twice.value.i)
  {
  }

  /** `Fx29` with a hexadecimal digit in Vx points I at that digit's glyph,
      which lies inside the font image at address 0. */
  lemma GlyphInFont(m: Machine, x: RegIndex)
    requires Valid(m) && m.regs[x] < 16
    ensures var r := Misc(m, x, 0x29);
            && r.Ok? && r.value.i % GlyphSize == 0
            && r.value.i / GlyphSize == m.regs[x]
            && r.value.i + GlyphSize <= |Font|
  {
  }

  /** `Fx0A` suspends the machine until a snapshot with a key down; that
      snapshot writes its highest pressed key into Vx and resumes. */
  lemma WaitThenKey(m: Machine, x: RegIndex, keys: Keys)
    requires Valid(m)
    ensures var w := Misc(m, x, 0x0A);
            && w.Ok? && w.value.waiting
            && var p := Poll(w.value, keys);
            && (p.waiting <==> !AnyPressed(keys))
            && (AnyPressed(keys) ==>
                  var k := p.regs[x];
                  && k < 16 && keys[k] && (forall j :: k < j < 16 ==> !keys[j])
                  && p.regs == m.regs[x := k])
  {
  }
}

=== FILE: storage.dfy ===
/** The memory and register bank: sizes, the built-in font, and the two
    container primitives the interpreter uses on it (vector resize and a
    bounds-respecting copy). */
module Storage {
  import opened Types

  /** 4 KiB of addressable memory. */
  const MemSize: nat := 0x1000

  /** Programs are loaded at, and execution starts from, address 0x200. */
  const MemStart: nat := 0x200

  /** The largest program image that fits between MemStart and the end of memory. */
  const MaxProgram: nat := MemSize - MemStart

  /** Number of display rows; each row is one 64-bit word. */
  const Rows: nat := 32

  /** Bytes per font glyph; glyph k starts at address 5 * k. */
  const GlyphSize: nat := 5

  /** The sixteen hexadecimal digit glyphs, five rows each. */
  const Font: seq<byte> := [
    0xF0, 0x90, 0x90, 0x90, 0xF0, // 0
    0x20, 0x60, 0x20, 0x20, 0x70, // 1
    0xF0, 0x10, 0xF0, 0x80, 0xF0, // 2
    0xF0, 0x10, 0xF0, 0x10, 0xF0, // 3
    0x90, 0x90, 0xF0, 0x10, 0x10, // 4
    0xF0, 0x80, 0xF0, 0x10, 0xF0, // 5
    0xF0, 0x80, 0xF0, 0x90, 0xF0, // 6
    0xF0, 0x10, 0x20, 0x40, 0x40, // 7
    0xF0, 0x90, 0xF0, 0x90, 0xF0, // 8
    0xF0, 0x90, 0xF0, 0x10, 0xF0, // 9
    0xF0, 0x90, 0xF0, 0x90, 0x90, // A
    0xE0, 0x90, 0xE0, 0x90, 0xE0, // B
    0xF0, 0x80, 0x80, 0x80, 0xF0, // C
    0xE0, 0x90, 0x90, 0x90, 0xE0, // D
    0xF0, 0x80, 0xF0, 0x80, 0xF0, // E
    0xF0, 0x80, 0xF0, 0x80, 0x80  // F
  ]

  /** `std::vector::resize` on a byte vector: existing elements up to the new
      size are kept, new elements are zero. */
  function Resize(s: seq<byte>, n: nat): (r: seq<byte>)
    ensures |r| == n
    ensures forall j :: 0 <= j < |s| && j < n ==> r[j] == s[j]
    ensures forall j :: |s| <= j < n ==> r[j] == 0
  {
    if |s| >= n then s[..n] else s + seq(n - |s|, _ => 0)
  }

  /** `std::copy(src, dst + at)`: writes src element by element into dst
      starting at offset `at`, first element first. */
  function Copy(dst: seq<byte>, src: seq<byte>, at: nat): (r: seq<byte>)
    requires at + |src| <= |dst|
    ensures |r| == |dst|
    ensures forall j :: 0 <= j < |dst| ==>
              r[j] == if at <= j < at + |src| then src[j - at] else dst[j]
    decreases |src|
  {
    if |src| == 0 then dst
    else Copy(dst[at := src[0]], src[1..], at + 1)
  }

  /** The three decimal digits of a byte, most significant first, as the
      `Fx33` handler computes them by repeated `% 10` and `/ 10`. */
  function Bcd(v: byte): (r: (byte, byte, byte))
    ensures r.0 < 10 && r.1 < 10 && r.2 < 10
    ensures 100 * r.0 + 10 * r.1 + r.2 == v
  {
    var units := v % 10;
    var tens := (v / 10) % 10;
    var hundreds := (v / 10 / 10) % 10;
    (hundreds, tens, units)
  }

  /** The memory image `load` leaves: `mem` resized to MemSize, the font
      table `font` copied to address 0 and the program `p` to MemStart. Where
      neither image lands, what `mem` held survives, and zero past its end. */
  function Image(mem: seq<byte>, font: seq<byte>, p: seq<byte>): (r: seq<byte>)
    requires |font| <= MemStart && |p| <= MaxProgram
    ensures |r| == MemSize
    ensures forall j :: 0 <= j < |font| ==> r[j] == font[j]
    ensures forall j :: 0 <= j < |p| ==> r[MemStart + j] == p[j]
    ensures forall j :: |font| <= j < MemSize && !(MemStart <= j < MemStart + |p|) ==>
              r[j] == if j < |mem| then mem[j] else 0
  {
    Copy(Copy(Resize(mem, MemSize), font, 0), p, MemStart)
  }

  /** Writing the same images a second time changes nothing. */
  lemma ImageTwice(mem: seq<byte>, font: seq<byte>, p: seq<byte>)
    requires |font| <= MemStart && |p| <= MaxProgram
    ensures Image(Image(mem, font, p), font, p) == Image(mem, font, p)
  {
    var once := Image(mem, font, p);
    var twice := Image(once, font, p);
    assert forall j :: 0 <= j < MemSize ==> twice[j] == once[j];
  }

  /** Resizing to the size a vector already has keeps it as it is. */
  lemma ResizeToOwnSize(s: seq<byte>)
    ensures Resize(s, |s|) == s
  {
  }

  /** The image written into empty memory: the font, zeros up to MemStart,
      the program, zeros to the end. */
  lemma ImageOfEmpty(font: seq<byte>, p: seq<byte>)
    requires |font| <= MemStart && |p| <= MaxProgram
    ensures var r := Image([], font, p);
            && r[..|font|] == font
            && r[MemStart..MemStart + |p|] == p
            && (forall j :: |font| <= j < MemStart ==> r[j] == 0)
            && (forall j :: MemStart + |p| <= j < MemSize ==> r[j] == 0)
  {
    var r := Image([], font, p);
    assert r[..|font|] == font;
    assert r[MemStart..MemStart + |p|] == p;
  }
}

=== FILE: types.dfy ===
/** Basic vocabulary shared by every part of the interpreter model: bytes,
    register indices, the fault taxonomy and a failure-compatible result. */
module Types {

  /** An unsigned 8-bit cell (a `uint8_t` of the source), kept as an integer so
      that carries and borrows can be stated with ordinary arithmetic. */
  type byte = x: int | 0 <= x < 256

  /** One of the sixteen general registers V0..VF. */
  type RegIndex = x: nat | x < 16

  /** Index of VF, the carry / borrow / shift-out / collision register. */
  const FlagReg: RegIndex := 15

  /** The two fatal conditions a step can raise: an `.at()` access outside its
      container, and an `8xy_` instruction with no defined sub-opcode. */
  datatype Fault = OutOfBounds | UnsupportedOpcode

  /** The outcome of an operation that may raise a fault. */
  datatype Result<+T> = Ok(value: T) | Err(fault: Fault) {

    predicate IsFailure() {
      Err?
    }

    function PropagateFailure<U>(): Result<U>
      requires Err?
    {
      Err(fault)
    }

    function Extract(): T
      requires Ok?
    {
      value
    }
  }
}

